=== FILE: README.md ===
# Klondike solitaire game state, in Dafny

This project models the rules engine of a Java Klondike solitaire program. It covers:

- the `Card` value (rank, suit, face-up flag);
- the `Deck` pile, a 52-slot array whose cards form a non-null prefix;
- the `KlondikeModel` engine, with one stock (`deck`), one waste (`drawPile`),
  four foundations indexed by suit ordinal and seven tableau piles;
- the pure `Klondike.imageFilename` map from a card to its image file.

Each engine command is a pure function from one `Game` value to the next. An
illegal move returns the game unchanged, as the Java methods do nothing in that
case, with one exception. A move to the tableau from any pile but the waste
turns the source's top card face-up even when no card moves (see below).

Modules, in dependency order:

| file | module | contents |
|---|---|---|
| `cards.dfy` | `Cards` | `Rank`, `Suit`, `Card`, ordinals, colour, flipping, faces (`Face` = rank and suit) and the multiset of faces of a pile (`Keys`) |
| `decks.dfy` | `Decks` | `Deck` (a `seq<Card>` of at most 52 cards, bottom first), the slot view of the array, `size`, `getTopCard`, `getCardAt`, `add`, `fill`, `remove`, both `moveTo`s and the Fisher–Yates `shuffle` |
| `klondike_model.dfy` | `KlondikeModel` | `Game`, pile names, getters, the deal, `drawNextCard`, `successor`, `moveToFoundation`, `klondikeMove`, `moveToTableau`, and the index description of the `klondikeMove` scan (`Cut`/`Gather`) |
| `rules.dfy` | `Rules` | the game invariant and its preservation by every command |
| `drawing.dfy` | `Drawing` | repeated draws, the recycle round trip, and the draw sequence after a deal |
| `images.dfy` | `Images` | `imageFilename`, its numbering and its inverse |
| `scenarios.dfy` | `Scenarios` | the worked examples of the documentation and of `KlondikeTester` |

The invariant (`KlondikeModel.Invariant`) has these parts:

- the thirteen piles hold one complete deck between them, as a multiset of faces;
- the stock is face-down and the waste face-up;
- foundation `k` is ACE, TWO, … of suit `k`, face-up;
- every tableau pile is ordered. Its top card is face-up, face-down cards lie only below face-up ones, and each face-up card but the lowest may lie on the card beneath it.

The deal establishes the invariant. Drawing keeps it, and so do foundation moves and tableau moves from the waste or a tableau pile. The same moves from the stock break it.

Where the code and its documentation comments disagree, the model follows the code:

- `moveToTableau` does not range-check the tableau index. Its comment promises that an illegal move does nothing, but an out-of-range index makes the Java array access throw. The model requires `0 <= t < 7`.
- `getCardAt(n)` returns `null` for `size <= n < 52` and throws only outside `0..51`. `GetCardAt` models exactly that.
- `klondikeMove` has no `break`. Every face-up card that fits the destination's original top cuts the source again, so several blocks can move. With an ordered source at most one card fits, and then exactly one block moves.
- `add` on a full deck drops the card silently. Inside a game this cannot happen, because two piles never hold more than 52 cards between them (`Rules.PairFits`).
- `moveToFoundation` does not check that the source's top card is face-up. From the face-down stock it can put a face-down card on a foundation (`KlondikeModel.MoveToFoundationFromStock`).
- `moveToTableau` from any source other than the waste turns the source's top card face-up whether or not anything moved. The source may be a tableau pile, the stock or a foundation. In a game that keeps the invariant, a tableau or foundation top is already face-up. A move from the stock, whose cards are all face-down, moves nothing, yet turns the stock's top card face-up and so breaks the invariant (`KlondikeModel.MoveToTableauFromStock`).

## Model

| member | source | states |
|---|---|---|
| Cards.SuitOrdinal | src/Klondike.java:105-108 | the suit ordinals are CLUBS 0, SPADES 1, HEARTS 2, DIAMONDS 3, matching the foundation labels; the ordinal indexes the suit table |
| Cards.RankOrdinal | src/KlondikeTester.java:250-253 | the rank ordinals run ACE 0 to KING 12, with THREE..EIGHT at 2..7; the ordinal indexes the rank table |
| Cards.OrdinalsInvert | src/KlondikeTester.java:250-253 | ordinals and the enumeration tables are inverse bijections |
| Cards.NewCard | src/Card.java:28-37 | a new card has exactly the given rank and suit and is face-up |
| Cards.IsRed | src/Card.java:73-75 | a card is red (HEARTS or DIAMONDS) exactly when its suit ordinal is at least 2, so the colours split the suit table into halves |
| Cards.Flip | src/Card.java:81-83 | flipping toggles the face-up flag and keeps rank and suit |
| Cards.FlipTwice | src/Card.java:81-83 | two flips give back the original card, and a flip never changes the colour |
| Cards.TurnUp | src/KlondikeModel.java:143-147 | the "turn face-up if face-down" step gives a face-up card with the same face, and leaves a face-up card alone |
| Cards.TurnDown | src/KlondikeModel.java:71-74 | the "turn face-down if face-up" step gives a face-down card with the same face, and leaves a face-down card alone |
| Cards.KeysOfPermutation | src/Deck.java:177-187 | piles with the same multiset of cards have the same multiset of faces |
| Decks.Slots | src/Deck.java:36-38 | the 52 array slots hold the pile's cards in order, then empty slots |
| Decks.Size | src/Deck.java:59-72 | the counting loop stops at the first empty slot and returns the number of cards |
| Decks.GetTopCard | src/Deck.java:162-172 | the top-card loop returns the last card, or the empty slot 0 of an empty deck |
| Decks.TopCard | src/Deck.java:162-172 | the top card is absent exactly when the pile is empty; otherwise it is the last card |
| Decks.GetCardAt | src/Deck.java:108-110 | reading slot `n` fails exactly outside `0..51`; it gives a card exactly below the size, and that card is the `n`-th |
| Decks.Add | src/Deck.java:89-100 | below capacity, the card goes at position old-size and lower positions are kept; a full deck is unchanged |
| Decks.AddTwice | src/KlondikeTester.java:50-76 | a new deck is empty; two adds give size 2, the cards at positions 0 and 1, and the second card on top |
| Decks.StandardDeckLayout | src/Deck.java:43-52 | position `13 * s + k` of the filled deck holds rank `k` of suit `s` |
| Decks.StandardDeckFaces | src/Deck.java:43-52 | the filled deck holds 52 distinct faces and every face occurs; its top is the KING of DIAMONDS |
| Decks.Fill | src/Deck.java:43-52 | the nested suit/rank loop produces the standard deck of 52 cards |
| Decks.FillSuit | src/Deck.java:47-50 | the inner loop appends the thirteen ranks of one suit in order |
| Decks.WrapInt | src/Deck.java:148 | `int` subtraction gives the value in the 32-bit range congruent to the true difference modulo 2^32, which is the true difference when that fits |
| Decks.Remove | src/Deck.java:147-154 | removal keeps the bottom `size - n` cards; it keeps nothing when `n > size` and everything when `n <= 0`; when `size - n` overflows a Java `int` (a hugely negative `n`, such as `Integer.MIN_VALUE`) the difference wraps negative and the deck is emptied; it fails exactly when more than 52 slots would be copied without overflow |
| Decks.AddAll | src/Deck.java:134-137 | adding a block card by card appends it when it fits, and otherwise fills the deck up to 52 |
| Decks.MoveTop | src/Deck.java:117-121 | the top card leaves the deck and goes on top of `other`; an empty deck changes nothing |
| Decks.MoveBlock | src/Deck.java:130-139 | the deck keeps its bottom `size - n` cards and `other` gains the top `n` in order on top of its own; `n > size` fails before any change; `n = 0` changes nothing; a negative `n` changes nothing or fails on overrun, including when `size - n` overflows a Java `int` |
| Decks.MoveBlockOne | src/Deck.java:117-139 | moving a block of one card is moving the top card |
| Decks.MoveBlockConserves | src/Deck.java:130-139 | a block move within capacity loses no card: sizes and faces of the two decks add up as before |
| Decks.Swap | src/Deck.java:183-185 | the exchange puts the card from position `j` at `i` and the one from `i` at `j`, and leaves every other position alone |
| Decks.SwapMultiset | src/Deck.java:183-185 | the exchange of two positions permutes the cards |
| Decks.ShuffleSteps | src/Deck.java:181-186 | every prefix of the Fisher–Yates pass keeps the length and the multiset of cards |
| Decks.Shuffle | src/Deck.java:177-187 | the shuffle loop, with step `i` swapping position `i` with a drawn index in `[0, i]`, returns a permutation of the deck |
| KlondikeModel.GetFoundation | src/KlondikeModel.java:94-96 | the foundation at an index exists exactly for indices 0..3 |
| KlondikeModel.FoundationOf | src/KlondikeModel.java:97-99 | the foundation of a suit is the one at its ordinal |
| KlondikeModel.GetTableau | src/KlondikeModel.java:102-104 | the tableau pile at an index exists exactly for indices 0..6 |
| KlondikeModel.FaceAllDown | src/KlondikeModel.java:23-28 | the constructor's loop turns every card face-down and keeps every face in place |
| KlondikeModel.DealPile | src/KlondikeModel.java:33-41 | dealing pile `t` takes the top `t + 1` cards of the stock, the pile's card `k` being the stock's `k`-th card from the top; only the last is face-up; the rest of the stock stays below in its order; no card is lost |
| KlondikeModel.DealTableau | src/KlondikeModel.java:30-42 | pile `t` gets `t + 1` cards with only the top face-up, its card `k` being the card dealt `k`-th after the earlier piles' cards, counted from the top of the stock; the bottom 24 cards stay in the stock, face-down and in order; no card is lost |
| KlondikeModel.ShuffledDown | src/KlondikeModel.java:20-28 | fill, shuffle and turning down give 52 face-down cards holding every face once; position `k` holds the face at position `k` of the standard deck after the swaps drawn by `picks` |
| KlondikeModel.FirstDraw | src/KlondikeModel.java:49-54 | the first draw takes the stock's top card, turned face-up, as the whole waste; the stock keeps its other cards face-down and in order; no card is lost |
| KlondikeModel.NewGame | src/KlondikeModel.java:18-55 | after the deal, tableau pile `i` holds `i + 1` cards with only the top face-up; the foundations are empty; the waste holds one face-up card; the stock holds 23 face-down cards; the piles hold one complete deck; the invariant holds |
| KlondikeModel.DealGame | src/KlondikeModel.java:30-54 | dealing a full face-down deck gives tableau pile `i` of `i + 1` cards with only the top face-up, empty foundations, a waste of one face-up card and a face-down stock of 23; no card is lost and the invariant holds |
| KlondikeModel.DealtGameInvariant | src/KlondikeModel.java:18-55 | any game laid out as the deal lays it out satisfies the invariant |
| KlondikeModel.TurnUpTop | src/KlondikeModel.java:143-148 | turning the top face-up changes only the top card's flag and keeps the faces |
| KlondikeModel.Recycle | src/KlondikeModel.java:69-75 | the recycle loop empties the waste onto the stock, reversed and face-down |
| KlondikeModel.DrawNext | src/KlondikeModel.java:61-77 | with stock cards, the stock's top card goes face-up onto the waste; with an empty stock, the waste becomes the stock, reversed and face-down, and the waste is emptied; foundations and tableau never change |
| KlondikeModel.MoveToFoundation | src/KlondikeModel.java:134-151 | an illegal move changes nothing; a legal one moves the source's top card onto the foundation, turns the new source top face-up and changes no other pile |
| KlondikeModel.Successor | src/KlondikeModel.java:183-188 | a fitting card is a KING exactly when the pile is empty; on a card it never lies on an ACE and always has the other colour |
| KlondikeModel.FoundationAccepts | src/KlondikeModel.java:138-141 | foundation `k` accepts a card exactly when `k` is 0..3, the card has suit `k`, and it is the ACE on an empty foundation or the rank after the top's on a foundation whose top is not a KING |
| KlondikeModel.Scan | src/KlondikeModel.java:123-127 | the scan keeps a bottom part of the source in order and keeps the destination's own cards at its bottom |
| KlondikeModel.KlondikeMove | src/KlondikeModel.java:121-128 | the source keeps a bottom part of its cards in order; the destination keeps its own cards at the bottom |
| KlondikeModel.ScanStep | src/KlondikeModel.java:123-127 | each face-up card that fits the destination's original top moves it and the cards above it across, and the scan continues below it |
| KlondikeModel.KlondikeMoveEffect | src/KlondikeModel.java:121-128 | the source keeps a prefix reaching into its face-up run; the destination keeps its own cards at the bottom; no card is lost; nothing moves exactly when no face-up card fits; the cut is at the lowest card that fits; a single fitting card moves its block across in order |
| KlondikeModel.KlondikeMoveOneFit | src/KlondikeModel.java:121-128 | when exactly one face-up card fits, the block from it upwards moves across in order |
| KlondikeModel.KlondikeMoveNoFit | src/KlondikeModel.java:121-128 | when no face-up card fits, neither pile changes |
| KlondikeModel.MoveToTableau | src/KlondikeModel.java:158-176 | from the waste, one card moves exactly when it fits the destination's top and otherwise nothing changes; from another pile, `klondikeMove` runs and the source's new top is turned face-up; no other pile changes |
| KlondikeModel.MoveToTableauFromStock | src/KlondikeModel.java:167-174 | from a face-down stock nothing moves, since the scan stops at the first card, but the stock's top card is turned face-up, so the game changes and no other pile does |
| KlondikeModel.MoveToFoundationFromStock | src/KlondikeModel.java:135-142 | with no face-up check, an accepted card on top of a face-down stock goes onto the foundation face-down, so the foundation is no longer built |
| Rules.PairFits | src/Deck.java:26 | in a game, two distinct piles hold at most 52 cards between them, so no `add` ever drops a card |
| Rules.KlondikeMoveOrdered | src/KlondikeModel.java:106-128 | from an ordered pile, `klondikeMove` moves exactly one block (the cards from the fitting card up, in order) or nothing; it moves something exactly when some face-up card fits |
| Rules.AcceptedIsNext | src/KlondikeModel.java:138-141 | a built foundation accepts a card if and only if it is not full and the card is the next rank of its own suit |
| Rules.BuiltExtend | src/KlondikeModel.java:138-142 | a foundation built up from the ACE of its suit is still built after accepting a card |
| Rules.DrawNextKeepsInvariant | src/KlondikeModel.java:61-77 | drawing, or recycling, keeps the invariant |
| Rules.MoveToFoundationMovesOne | src/KlondikeModel.java:134-142 | from the waste or a tableau pile, the foundation grows by one card and the source shrinks by one exactly when the move is legal |
| Rules.MoveToFoundationKeepsInvariant | src/KlondikeModel.java:134-151 | a foundation move from the waste or a tableau pile keeps the invariant |
| Rules.TableauMovePilesOk | src/KlondikeModel.java:167-175 | a tableau-to-tableau move leaves both piles ordered and loses no card |
| Rules.MoveToTableauKeepsInvariant | src/KlondikeModel.java:158-176 | a move to a tableau pile from the waste or another tableau pile keeps the invariant |
| Drawing.DrawTimesFromStock | src/KlondikeModel.java:62-67 | while the stock lasts, `k` draws move its top `k` cards, face-up and in drawing order, onto the waste and change nothing else |
| Drawing.DrawTimesKeepsInvariant | src/KlondikeModel.java:61-77 | any number of draws keeps the invariant |
| Drawing.RecycleRoundTrip | src/KlondikeModel.java:61-77 | recycling a face-up waste and drawing as many cards as it held gives back the same waste and an empty stock |
| Drawing.DrawThroughStock | src/KlondikeTester.java:276-290 | after a deal, draws 1..23 shrink the stock by one and grow the waste by one; the 24th draw turns the waste back into a stock of 24 |
| Images.ImageNumber | src/Klondike.java:180-183 | the face image number lies in 1..52 |
| Images.ImageNumberRoundTrip | src/Klondike.java:180-183 | the rank and suit can be read back from the image number |
| Images.ImageNumberInjective | src/Klondike.java:180-183 | two cards share an image number exactly when they share rank and suit |
| Images.ImageNumberOnto | src/Klondike.java:180-183 | every number in 1..52 is the image number of the face it reads back as |
| Images.DecimalRoundTrip | src/Klondike.java:184 | the decimal notation of the image number reads back as the number |
| Images.ImageFilename | src/Klondike.java:176-185 | every file name starts with the image directory and the separator |
| Images.BackIffFaceDown | src/Klondike.java:177-179 | a card shows the back image exactly when it is face-down; a face image name ends in `.png` |
| Images.FilenameInjective | src/Klondike.java:176-185 | two face-up cards get the same file name exactly when they have the same rank and suit |
| Images.ThreeOfHeartsImage | src/KlondikeTester.java:339-345 | the face-up THREE of HEARTS is `47.png` and, flipped, the back image |
| Scenarios.SuccessorExamples | src/KlondikeTester.java:203-216 | QUEEN of CLUBS fits on KING of HEARTS, not the reverse; only the KING fits an empty pile |
| Scenarios.SuccessorNeeds | src/KlondikeModel.java:183-188 | a card fits another exactly when it is one rank lower and of the other colour, that is, when the other's rank follows it in the rank table and the suit ordinals lie in different halves; nothing fits an ACE or a card of the same colour; only a KING fits an empty pile |
| Scenarios.DocumentedKlondikeMove | src/KlondikeModel.java:106-120 | the documentation's example: `## 8d 7s 6d 5s 4d 3c` onto `## ## 6h` gives `## 8d 7s 6d` and `## ## 6h 5s 4d 3c` |
| Scenarios.TesterKlondikeMoveBack | src/KlondikeTester.java:242-245 | moving from the tester's destination to its source changes nothing |
| Scenarios.TesterKlondikeMove | src/KlondikeTester.java:246-254 | moving from the tester's source leaves 3 and 7 cards, and the destination shows THREE..EIGHT from the top down |
| Scenarios.KingToEmptyPile | src/KlondikeTester.java:257-274 | a SEVEN does not move to an empty pile; a KING does |
| Scenarios.TesterMoveToFoundation | src/KlondikeTester.java:292-312 | on the tester's pile, the CLUBS move does nothing; two HEARTS moves take the ACE and TWO and turn the SEVEN up; the SPADES move does nothing |
| Scenarios.TesterMoveToTableau | src/KlondikeTester.java:314-336 | on the tester's piles, the waste card does not fit pile 5, fits pile 6, and then two cards follow from pile 5, leaving sizes 6 and 10 |

## Left out

- The Swing GUI: painting, mouse-click geometry, the source/destination click state and frame setup. These are presentation and I/O. Image loading and caching and the file-readability checks of the tester are also left out, as file I/O.
- `SecureRandom`: the shuffle's random indices are the parameter `picks`, with step `i` drawing in `[0, i]`. Uniformity of the shuffle is a probabilistic property and is not stated.
- `File.separator` is the parameter `sep` of `Images.ImageFilename`.
- `Card.toString` formatting and the `size(Deck other)` wrapper. The first is display only; the second adds nothing to `size`.
- Java object identity and aliasing. Cards are values, not shared mutable objects. `MoveToTableau` requires the source to differ from the destination. The tester's `==` comparisons of card references become equality of values.
- KlondikeModel.MoveToTableau: requires `0 <= t < 7`, because an index outside that range makes the source throw on the array access rather than do nothing.
- Rules.MoveToFoundationKeepsInvariant: stated for the waste and tableau sources only. Those are the only sources the GUI passes. A foundation move from another foundation is modelled by `MoveToFoundation` but not proved to keep the invariant. A foundation move from the stock does not keep it. The source does not check that the card is face-up, so an accepted face-down card lands on the foundation face-down (`KlondikeModel.MoveToFoundationFromStock`). The stock's new top is then turned face-up as well.
- Rules.MoveToTableauKeepsInvariant: stated for the waste and tableau sources only, for the same reason. From the stock the move does not keep the invariant: it turns the stock's top card face-up (`KlondikeModel.MoveToTableauFromStock`).
- KlondikeModel.KlondikeMoveEffect: when several face-up cards fit the destination's top, which needs an unordered source, the contract states the shapes of both piles and the conservation of cards. It does not state the arrangement of the several moved blocks on the destination.
- Scenarios.TesterMoveToTableau and Scenarios.TesterMoveToFoundation: the tester builds its piles on top of a randomly dealt game, and on a detached `Deck` for the foundation case. The lemmas hold for every game with the piles the test sets up, with the source pile taken as tableau pile 0 in the foundation case.
- `Rank.java` and `Suit.java` are not part of this model. The declaration orders come from three places: the foundation labels (src/Klondike.java:105-108), the tester's rank checks (src/KlondikeTester.java:250-253) and the image numbering.
- Integer widths: pile sizes and indices stay within 0..52, so their arithmetic cannot overflow. The one place a caller's `int` meets that arithmetic is `size - n` in `remove` and `moveTo(Deck, int)`. There the model takes `n` as a Java `int` (`Decks.IsInt`) and wraps the difference as Java does (`Decks.WrapInt`).

=== FILE: cards.dfy ===
/** Playing cards: a rank, a suit and a face-up flag.  Colour is derived
    from the suit and never stored. */
module Cards {

  /** Suits in declaration order; the ordinal of a suit indexes its foundation. */
  datatype Suit = Clubs | Spades | Hearts | Diamonds

  /** Ranks in declaration order, ACE = 0 up to KING = 12. */
  datatype Rank = Ace | Two | Three | Four | Five | Six | Seven | Eight | Nine | Ten | Jack | Queen | King

  const Suits: seq<Suit> := [Clubs, Spades, Hearts, Diamonds]
  const Ranks: seq<Rank> := [Ace, Two, Three, Four, Five, Six, Seven, Eight, Nine, Ten, Jack, Queen, King]

  /** Position of `s` in the suit enumeration. */
  function SuitOrdinal(s: Suit): (n: nat)
    ensures n < |Suits| && Suits[n] == s
  {
    match s
    case Clubs => 0
    case Spades => 1
    case Hearts => 2
    case Diamonds => 3
  }

  /** Position of `r` in the rank enumeration. */
  function RankOrdinal(r: Rank): (n: nat)
    ensures n < |Ranks| && Ranks[n] == r
  {
    match r
    case Ace => 0
    case Two => 1
    case Three => 2
    case Four => 3
    case Five => 4
    case Six => 5
    case Seven => 6
    case Eight => 7
    case Nine => 8
    case Ten => 9
    case Jack => 10
    case Queen => 11
    case King => 12
  }

  /** Ordinals are a bijection with the enumeration tables. */
  lemma OrdinalsInvert()
    ensures forall i :: 0 <= i < |Suits| ==> SuitOrdinal(Suits[i]) == i
    ensures forall i :: 0 <= i < |Ranks| ==> RankOrdinal(Ranks[i]) == i
  {
  }

  datatype Card = Card(rank: Rank, suit: Suit, faceUp: bool)

  /** The identity of a card apart from its orientation. */
  type Face = (Rank, Suit)

  function FaceOf(c: Card): Face {
    (c.rank, c.suit)
  }

  /** A newly constructed card is face-up and carries the given rank and suit. */
  function NewCard(r: Rank, s: Suit): (c: Card)
    ensures c.rank == r && c.suit == s
    ensures c.faceUp
  {
    Card(r, s, true)
  }

  /** Red cards are the two suits of ordinal 2 and 3 (HEARTS and DIAMONDS). */
  function IsRed(c: Card): (r: bool)
    ensures r <==> SuitOrdinal(c.suit) >= 2
  {
    c.suit == Hearts || c.suit == Diamonds
  }

  /** Turns the card over; rank and suit stay. */
  function Flip(c: Card): (r: Card)
    ensures r.faceUp != c.faceUp
    ensures FaceOf(r) == FaceOf(c)
  {
    c.(faceUp := !c.faceUp)
  }

  lemma FlipTwice(c: Card)
    ensures Flip(Flip(c)) == c
    ensures IsRed(Flip(c)) == IsRed(c)
  {
  }

  /** The recurring "if face-down then flip" step. */
  function TurnUp(c: Card): (r: Card)
    ensures r.faceUp && FaceOf(r) == FaceOf(c)
    ensures c.faceUp ==> r == c
  {
    if !c.faceUp then Flip(c) else c
  }

  /** The recurring "if face-up then flip" step. */
  function TurnDown(c: Card): (r: Card)
    ensures !r.faceUp && FaceOf(r) == FaceOf(c)
    ensures !c.faceUp ==> r == c
  {
    if c.faceUp then Flip(c) else c
  }

  /** The faces of a pile, bottom to top. */
  function Faces(s: seq<Card>): (f: seq<Face>)
    ensures |f| == |s|
    ensures forall i :: 0 <= i < |s| ==> f[i] == FaceOf(s[i])
  {
    seq(|s|, i requires 0 <= i < |s| => FaceOf(s[i]))
  }

  lemma FacesAppend(a: seq<Card>, b: seq<Card>)
    ensures Faces(a + b) == Faces(a) + Faces(b)
  {
    assert Faces(a + b) == Faces(a) + Faces(b);
  }

  /** Multiset of faces held by a pile. */
  function Keys(s: seq<Card>): multiset<Face>
  {
    multiset(Faces(s))
  }

  lemma KeysAppend(a: seq<Card>, b: seq<Card>)
    ensures Keys(a + b) == Keys(a) + Keys(b)
  {
    FacesAppend(a, b);
  }

  lemma KeysSplit(s: seq<Card>, k: nat)
    requires k <= |s|
    ensures Keys(s) == Keys(s[..k]) + Keys(s[k..])
  {
    assert s == s[..k] + s[k..];
    KeysAppend(s[..k], s[k..]);
  }

  lemma KeysSize(s: seq<Card>)
    ensures |Keys(s)| == |s|
  {
  }

  /** Piles holding the same cards hold the same faces. */
  lemma {:induction false} KeysOfPermutation(a: seq<Card>, b: seq<Card>)
    requires multiset(a) == multiset(b)
    ensures Keys(a) == Keys(b)
    decreases |a|
  {
    if |a| > 0 {
      var n := |a| - 1;
      var x := a[n];
      assert a == a[..n] + [x];
      assert x in multiset(b);
      var j :| 0 <= j < |b| && b[j] == x;
      var rest := b[..j] + b[j + 1..];
      assert b == b[..j] + [x] + b[j + 1..];
      assert multiset(a[..n]) == multiset(a) - multiset{x};
      assert multiset(rest) == multiset(b) - multiset{x};
      KeysOfPermutation(a[..n], rest);
      KeysAppend(a[..n], [x]);
      KeysAppend(b[..j], [x]);
      KeysAppend(b[..j] + [x], b[j + 1..]);
      KeysAppend(b[..j], b[j + 1..]);
    }
  }

  /** Replacing a card by one with the same face leaves the multiset of faces alone. */
  lemma KeysUpdate(s: seq<Card>, i: nat, c: Card)
    requires i < |s| && FaceOf(c) == FaceOf(s[i])
    ensures Keys(s[i := c]) == Keys(s)
  {
    assert Faces(s[i := c]) == Faces(s);
  }
}

=== FILE: decks.dfy ===
/** A pile of at most 52 cards.  The source stores it as a 52-slot array whose
    cards form a non-null prefix; here a pile is that prefix, bottom first, so
    the top card is the last element. */
module Decks {
  import opened Cards

  /** Number of slots in the backing array. */
  const Capacity: nat := 52

  type Deck = s: seq<Card> | |s| <= Capacity

  datatype Option<+T> = None | Some(value: T)

  /** An array index outside the backing array (or a negative one). */
  datatype DeckError = IndexOutOfBounds(index: int)

  datatype Result<+T> = Ok(value: T) | Err(error: DeckError)

  /** Bounds of Java's 32-bit `int`. */
  const IntMin: int := -0x8000_0000
  const IntMax: int := 0x7fff_ffff

  predicate IsInt(x: int)
  {
    IntMin <= x <= IntMax
  }

  /** Java `int` arithmetic: the mathematical result wrapped modulo 2^32
      into the `int` range. */
  function WrapInt(x: int): (r: int)
    ensures IsInt(r) && (x - r) % 0x1_0000_0000 == 0
    ensures IsInt(x) ==> r == x
  {
    (x - IntMin) % 0x1_0000_0000 + IntMin
  }

  /** A result just above the `int` range wraps round to a negative one. */
  lemma WrapIntAbove(x: int)
    ensures IntMax < x < 0x1_0000_0000 ==> WrapInt(x) == x - 0x1_0000_0000 < 0
  {
  }

  // ---------------------------------------------------------------------
  // The backing array

  /** The 52 array slots that hold `d`: the cards first, then empty slots. */
  function Slots(d: Deck): (a: seq<Option<Card>>)
    ensures |a| == Capacity
    ensures forall i :: 0 <= i < |d| ==> a[i] == Some(d[i])
    ensures forall i :: |d| <= i < Capacity ==> a[i] == None
  {
    seq(Capacity, i requires 0 <= i < Capacity => if i < |d| then Some(d[i]) else None)
  }

  /** The size loop: counts slots up to the first empty one. */
  method Size(d: Deck) returns (n: nat)
    ensures n == |d|
  {
    var a := Slots(d);
    n := 0;
    var i := 0;
    while i < |a|
      invariant 0 <= n == i <= |d|
      decreases |a| - i
    {
      if a[i] != None {
        n := n + 1;
      } else {
        break;
      }
      i := i + 1;
    }
  }

  /** The top-card loop: remembers the last occupied slot before the first
      empty one, then reads that slot (slot 0 when there is none). */
  method GetTopCard(d: Deck) returns (c: Option<Card>)
    ensures c == TopCard(d)
  {
    var a := Slots(d);
    var n := 0;
    var i := 0;
    while i < |a|
      invariant 0 <= i <= |d|
      invariant if i == 0 then n == 0 else n == i - 1
      decreases |a| - i
    {
      if a[i] != None {
        n := i;
      } else {
        break;
      }
      i := i + 1;
    }
    c := a[n];
  }

  // ---------------------------------------------------------------------
  // Single-card access

  /** The top card, or nothing when the pile is empty. */
  function TopCard(d: Deck): (c: Option<Card>)
    ensures c.None? <==> |d| == 0
    ensures c.Some? ==> c.value == d[|d| - 1] && c.value in d
  {
    if |d| == 0 then None else Some(d[|d| - 1])
  }

  /** Reads slot `n`: a card below the size, an empty slot above it, an
      error outside the array. */
  function GetCardAt(d: Deck, n: int): (r: Result<Option<Card>>)
    ensures r.Err? <==> !(0 <= n < Capacity)
    ensures r.Ok? ==> (r.value.Some? <==> n < |d|)
    ensures r.Ok? && r.value.Some? ==> r.value.value == d[n]
  {
    if n < 0 || Capacity <= n then Err(IndexOutOfBounds(n))
    else Ok(Slots(d)[n])
  }

  /** Puts `c` in the first empty slot; a full deck is left as it is. */
  function Add(d: Deck, c: Card): (r: Deck)
    ensures |d| < Capacity ==> |r| == |d| + 1 && r[|d|] == c && r[..|d|] == d
    ensures |d| == Capacity ==> r == d
  {
    if |d| < Capacity then d + [c] else d
  }

  /** A new deck has no cards; adding to it gives the cards back in order
      (the size and positional tests of the source). */
  lemma AddTwice(a: Card, b: Card)
    ensures |Add(Add([], a), b)| == 2
    ensures GetCardAt(Add(Add([], a), b), 0) == Ok(Some(a))
    ensures GetCardAt(Add(Add([], a), b), 1) == Ok(Some(b))
    ensures TopCard(Add(Add([], a), b)) == Some(b)
    ensures TopCard([]) == None
  {
  }

  // ---------------------------------------------------------------------
  // The standard deck

  /** The 52 cards, suit-major and rank-minor, all face-up. */
  function StandardDeck(): (d: Deck)
    ensures |d| == Capacity
  {
    seq(Capacity, i requires 0 <= i < Capacity => NewCard(Ranks[i % 13], Suits[i / 13]))
  }

  /** Position `13 * s + k` of the standard deck holds rank `k` of suit `s`. */
  lemma StandardDeckLayout(s: nat, k: nat)
    requires s < 4 && k < 13
    ensures StandardDeck()[13 * s + k] == NewCard(Ranks[k], Suits[s])
  {
    var i := 13 * s + k;
    assert i / 13 == s && i % 13 == k;
  }

  /** Distinct positions of the standard deck hold distinct faces, and every
      face occurs; its top card is the KING of DIAMONDS. */
  lemma StandardDeckFaces()
    ensures forall i, j :: 0 <= i < j < Capacity ==> FaceOf(StandardDeck()[i]) != FaceOf(StandardDeck()[j])
    ensures forall r: Rank, s: Suit :: (r, s) in Faces(StandardDeck())
    ensures TopCard(StandardDeck()) == Some(NewCard(King, Diamonds))
  {
    var d := StandardDeck();
    OrdinalsInvert();
    forall r: Rank, s: Suit
      ensures (r, s) in Faces(d)
    {
      var k := RankOrdinal(r);
      var t := SuitOrdinal(s);
      StandardDeckLayout(t, k);
      assert Faces(d)[13 * t + k] == (r, s);
    }
    StandardDeckLayout(3, 12);
  }

  /** The fill loop: for each suit, for each rank, the next slot gets a new
      face-up card.  Every slot is overwritten, so the result does not depend
      on what the deck held before. */
  method Fill() returns (d: Deck)
    ensures d == StandardDeck()
    ensures |d| == Capacity
  {
    var cards: seq<Card> := [];
    var s := 0;
    while s < |Suits|
      invariant 0 <= s <= |Suits|
      invariant cards == StandardDeck()[..13 * s]
    {
      cards := FillSuit(cards, s);
      s := s + 1;
    }
    assert StandardDeck()[..13 * 4] == StandardDeck();
    d := cards;
  }

  /** The inner loop of the fill: the thirteen ranks of suit `s`, in order. */
  method FillSuit(before: seq<Card>, s: nat) returns (cards: seq<Card>)
    requires s < |Suits| && before == StandardDeck()[..13 * s]
    ensures cards == StandardDeck()[..13 * (s + 1)]
  {
    var base := 13 * s;
    cards := before;
    var r := 0;
    while r < |Ranks|
      invariant 0 <= r <= |Ranks|
      invariant cards == StandardDeck()[..base + r]
    {
      StandardDeckNext(s, r);
      cards := cards + [NewCard(Ranks[r], Suits[s])];
      r := r + 1;
    }
  }

  lemma StandardDeckNext(s: nat, k: nat)
    requires s < 4 && k < 13
    ensures var i := 13 * s + k;
      StandardDeck()[..i + 1] == StandardDeck()[..i] + [NewCard(Ranks[k], Suits[s])]
  {
    PrefixStep(StandardDeck(), 13 * s + k);
    StandardDeckLayout(s, k);
  }

  lemma PrefixStep<T>(d: seq<T>, i: nat)
    requires i < |d|
    ensures d[..i + 1] == d[..i] + [d[i]]
  {
  }

  // ---------------------------------------------------------------------
  // Removal and transfers

  /** Keeps the bottom `|d| - n` cards, that difference taken in `int`
      arithmetic.  Copying more slots than the deck has copies empty slots;
      copying more than 52 overruns the array; a difference that wraps round
      to a negative number copies nothing. */
  function Remove(d: Deck, n: int): (r: Result<Deck>)
    requires IsInt(n)
    ensures r.Err? <==> Capacity < |d| - n <= IntMax
    ensures 0 <= n <= |d| ==> r == Ok(d[..|d| - n])
    ensures n > |d| ==> r == Ok([])
    ensures n < 0 && |d| - n <= Capacity ==> r == Ok(d)
    ensures |d| - n > IntMax ==> r == Ok([])
  {
    if |d| - n > IntMax then
      WrapIntAbove(|d| - n);
      assert WrapInt(|d| - n) < 0;
      Ok([])
    else
      var keep := |d| - n;
      if keep > Capacity then Err(IndexOutOfBounds(Capacity))
      else if keep <= 0 then Ok([])
      else if keep >= |d| then assert d[..|d|] == d; Ok(d)
      else Ok(d[..keep])
  }

  /** Adds `cs` one at a time, bottom first; cards that find no empty slot are lost. */
  function AddAll(d: Deck, cs: seq<Card>): (r: Deck)
    ensures |d| + |cs| <= Capacity ==> r == d + cs
    ensures |d| + |cs| > Capacity ==> |r| == Capacity && r == (d + cs)[..Capacity]
    decreases |cs|
  {
    if |cs| == 0 then d
    else
      var r := AddAll(Add(d, cs[0]), cs[1..]);
      assert d + cs == (d + [cs[0]]) + cs[1..];
      r
  }

  /** `moveTo(other)`: the top card goes onto `other`.  On an empty deck the
      missing card is not added and nothing changes. */
  function MoveTop(d: Deck, other: Deck): (r: (Deck, Deck))
    ensures |d| == 0 ==> r == (d, other)
    ensures |d| > 0 ==> r.0 == d[..|d| - 1] && |r.0| == |d| - 1
    ensures |d| > 0 && |other| < Capacity ==> r.1 == other + [d[|d| - 1]]
    ensures |d| > 0 && |other| == Capacity ==> r.1 == other
  {
    match TopCard(d)
    case None => (d, other)
    case Some(c) => (d[..|d| - 1], Add(other, c))
  }

  /** `moveTo(other, n)`: the top `n` cards go onto `other` in their order, then
      are removed here.  Asking for more cards than the deck holds reads a
      negative index before anything changes. */
  function MoveBlock(d: Deck, other: Deck, n: int): (r: Result<(Deck, Deck)>)
    requires IsInt(n)
    ensures n > |d| ==> r.Err?
    ensures 0 <= n <= |d| ==> r.Ok? && r.value.0 == d[..|d| - n]
    ensures 0 <= n <= |d| && |other| + n <= Capacity ==> r == Ok((d[..|d| - n], other + d[|d| - n..]))
    ensures n == 0 ==> r == Ok((d, other))
    ensures n < 0 ==> (r.Err? <==> |d| - n > Capacity) && (r.Ok? ==> r.value == (d, other))
  {
    if |d| - n > IntMax then
      WrapIntAbove(|d| - n);
      Err(IndexOutOfBounds(WrapInt(|d| - n)))
    else if n > |d| then Err(IndexOutOfBounds(|d| - n))
    else
      assert n == 0 ==> other + d[|d| - n..] == other;
      var moved := if n <= 0 then other else AddAll(other, d[|d| - n..]);
      match Remove(d, n)
      case Err(e) => Err(e)
      case Ok(rest) => Ok((rest, moved))
  }

  /** Moving one card as a block of one is the same as moving the top card. */
  lemma MoveBlockOne(d: Deck, other: Deck)
    requires |d| >= 1
    ensures MoveBlock(d, other, 1) == Ok(MoveTop(d, other))
  {
    assert d[|d| - 1..] == [d[|d| - 1]];
  }

  /** A block move within capacity keeps the total multiset of faces and
      the combined number of cards. */
  lemma MoveBlockConserves(d: Deck, other: Deck, n: nat)
    requires n <= |d| && |d| + |other| <= Capacity
    ensures MoveBlock(d, other, n).Ok?
    ensures var (d', o') := MoveBlock(d, other, n).value;
      Keys(d') + Keys(o') == Keys(d) + Keys(other) && |d'| + |o'| == |d| + |other|
  {
    var k := |d| - n;
    assert MoveBlock(d, other, n) == Ok((d[..k], other + d[k..]));
    SplitKeys(d, other, k);
  }

  /** Moving the cards above `k` onto `other` keeps the faces of the pair. */
  lemma SplitKeys(d: seq<Card>, other: seq<Card>, k: nat)
    requires k <= |d|
    ensures Keys(d[..k]) + Keys(other + d[k..]) == Keys(d) + Keys(other)
  {
    KeysSplit(d, k);
    KeysAppend(other, d[k..]);
  }

  // ---------------------------------------------------------------------
  // Shuffling

  /** Exchanges positions `i` and `j`. */
  function Swap<T>(s: seq<T>, i: nat, j: nat): (r: seq<T>)
    requires i < |s| && j < |s|
    ensures |r| == |s| && r[i] == s[j] && r[j] == s[i]
    ensures forall k :: 0 <= k < |s| && k != i && k != j ==> r[k] == s[k]
  {
    seq(|s|, k requires 0 <= k < |s| => if k == j then s[i] else if k == i then s[j] else s[k])
  }

  /** A swap permutes the elements. */
  lemma SwapMultiset<T>(s: seq<T>, i: nat, j: nat)
    requires i < |s| && j < |s|
    ensures multiset(Swap(s, i, j)) == multiset(s)
  {
    var t := s[i := s[j]];
    assert Swap(s, i, j) == t[j := s[i]];
    assert multiset(t) == multiset(s) - multiset{s[i]} + multiset{s[j]};
    assert multiset(t[j := s[i]]) == multiset(t) - multiset{t[j]} + multiset{s[i]};
  }

  /** The draws a Fisher-Yates pass may make: step `i` picks in `[0, i]`. */
  predicate ValidPicks(picks: seq<int>, n: nat)
  {
    |picks| == n && forall i :: 0 <= i < n ==> 0 <= picks[i] <= i
  }

  /** The swaps of the first `k` steps, applied in order. */
  function ShuffleSteps<T>(d: seq<T>, picks: seq<int>, k: nat): (r: seq<T>)
    requires ValidPicks(picks, |d|) && k <= |d|
    ensures |r| == |d| && multiset(r) == multiset(d)
  {
    if k == 0 then d
    else
      var p := ShuffleSteps(d, picks, k - 1);
      SwapMultiset(p, k - 1, picks[k - 1]);
      Swap(p, k - 1, picks[k - 1])
  }

  /** The shuffle loop; `picks[i]` stands for the random index drawn at step `i`. */
  method Shuffle(d: Deck, picks: seq<int>) returns (r: Deck)
    requires ValidPicks(picks, |d|)
    ensures r == ShuffleSteps(d, picks, |d|)
    ensures |r| == |d| && multiset(r) == multiset(d) && Keys(r) == Keys(d)
  {
    var cards: seq<Card> := d;
    var i := 0;
    while i < |d|
      invariant 0 <= i <= |d|
      invariant |cards| == |d|
      invariant cards == ShuffleSteps(d, picks, i)
      invariant multiset(cards) == multiset(d)
    {
      assert 0 <= picks[i] <= i;
      SwapMultiset(cards, i, picks[i]);
      cards := Swap(cards, i, picks[i]);
      i := i + 1;
    }
    KeysOfPermutation(cards, d);
    r := cards;
  }
}

=== FILE: drawing.dfy ===
/** Repeated draws: how the stock runs out into the waste, and how a
    recycle followed by drawing the whole stock gives the waste back. */
module Drawing {
  import opened Cards
  import opened Decks
  import opened KlondikeModel
  import opened Rules

  /** The cards that `k` draws take from the top of stock `s`, turned
      face-up, in the order they are drawn. */
  function Drawn(s: seq<Card>, k: nat): (r: seq<Card>)
    requires k <= |s|
    ensures |r| == k
    ensures forall i :: 0 <= i < k ==> r[i] == TurnUp(s[|s| - 1 - i])
  {
    seq(k, i requires 0 <= i < k => TurnUp(s[|s| - 1 - i]))
  }

  /** `r` is game `g` after its top `k` stock cards were drawn. */
  predicate StockDrawn(r: Game, g: Game, k: nat)
    requires k <= |g.deck|
  {
    && r.deck == g.deck[..|g.deck| - k]
    && r.drawPile == g.drawPile + Drawn(g.deck, k)
    && r.foundations == g.foundations
    && r.tableau == g.tableau
  }

  /** One more draw from a stock that still has cards. */
  lemma DrawOneMore(p: Game, g: Game, k: nat)
    requires 0 < k <= |g.deck| && |g.deck| + |g.drawPile| <= Capacity
    requires StockDrawn(p, g, k - 1)
    ensures StockDrawn(DrawNext(p), g, k)
  {
    var s, n := g.deck, |g.deck|;
    assert p.deck[..|p.deck| - 1] == s[..n - k];
    assert p.deck[|p.deck| - 1] == s[n - k];
    assert Drawn(s, k) == Drawn(s, k - 1) + [TurnUp(s[n - k])];
  }

  /** While the stock lasts, `k` draws move its top `k` cards to the waste,
      face-up, and touch nothing else. */
  lemma {:induction false} DrawTimesFromStock(g: Game, k: nat)
    requires k <= |g.deck| && |g.deck| + |g.drawPile| <= Capacity
    ensures StockDrawn(DrawTimes(g, k), g, k)
    decreases k
  {
    if k == 0 {
      assert g.deck[..|g.deck|] == g.deck;
      assert g.drawPile + Drawn(g.deck, 0) == g.drawPile;
    } else {
      DrawTimesFromStock(g, k - 1);
      DrawOneMore(DrawTimes(g, k - 1), g, k);
    }
  }

  /** Drawing any number of times keeps the invariant. */
  lemma {:induction false} DrawTimesKeepsInvariant(g: Game, k: nat)
    requires Invariant(g)
    ensures Invariant(DrawTimes(g, k))
    decreases k
  {
    if k > 0 {
      DrawTimesKeepsInvariant(g, k - 1);
      DrawNextKeepsInvariant(DrawTimes(g, k - 1));
    }
  }

  /** Recycling a face-up waste and then drawing as many cards as it held
      gives back exactly the waste, with the stock empty again. */
  lemma RecycleRoundTrip(g: Game)
    requires g.deck == [] && AllFaceUp(g.drawPile)
    ensures DrawTimes(DrawNext(g), |g.drawPile|).drawPile == g.drawPile
    ensures DrawTimes(DrawNext(g), |g.drawPile|).deck == []
  {
    var w := g.drawPile;
    var g1 := DrawNext(g);
    assert g1.deck == ReversedDown(w) && g1.drawPile == [];
    DrawTimesFromStock(g1, |w|);
    DrawnReversed(w);
  }

  /** Drawing a whole recycled stock turns it back into the face-up waste. */
  lemma DrawnReversed(w: seq<Card>)
    requires AllFaceUp(w)
    ensures Drawn(ReversedDown(w), |w|) == w
  {
    var d := Drawn(ReversedDown(w), |w|);
    forall i | 0 <= i < |w|
      ensures d[i] == w[i]
    {
      assert d[i] == TurnUp(TurnDown(w[i]));
    }
  }

  /** From a freshly dealt game (23 cards in the stock, one in the waste) the
      first 23 draws empty the stock one card at a time and the 24th turns
      the waste back into a stock of 24. */
  lemma DrawThroughStock(g: Game)
    requires Invariant(g) && |g.deck| == 23 && |g.drawPile| == 1
    ensures forall i :: 1 <= i <= 23 ==>
      |DrawTimes(g, i).deck| == 23 - i && |DrawTimes(g, i).drawPile| == 1 + i
    ensures |DrawTimes(g, 24).drawPile| == 0 && |DrawTimes(g, 24).deck| == 24
  {
    forall i | 1 <= i <= 23
      ensures |DrawTimes(g, i).deck| == 23 - i && |DrawTimes(g, i).drawPile| == 1 + i
    {
      DrawnSizes(g, i);
    }
    DrawnSizes(g, 23);
    var p := DrawTimes(g, 23);
    assert DrawTimes(g, 24) == DrawNext(p);
  }

  /** Sizes of the two drawing piles after `k` draws from a stock that lasts. */
  lemma DrawnSizes(g: Game, k: nat)
    requires k <= |g.deck| && |g.deck| + |g.drawPile| <= Capacity
    ensures |DrawTimes(g, k).deck| == |g.deck| - k
    ensures |DrawTimes(g, k).drawPile| == |g.drawPile| + k
  {
    DrawTimesFromStock(g, k);
  }
}

=== FILE: images.dfy ===
/** Card image file names: a face-down card shows the common back image;
    a face-up card shows the numbered face image of the card-image set,
    where the four ACEs come first and the other ranks follow from KING
    downwards, four suits per rank. */
module Images {
  import opened Cards

  const Directory: string := "card-images"
  const BackImage: string := "b2fv.png"
  const Extension: string := ".png"

  /** Number of the face image: one plus the suit ordinal, plus four per
      rank below KING for every rank but ACE. */
  function ImageNumber(c: Card): (n: nat)
    ensures 1 <= n <= 52
  {
    var r := RankOrdinal(c.rank);
    1 + SuitOrdinal(c.suit) + (if r > 0 then 4 * (13 - r) else 0)
  }

  /** The face shown by image number `n`, read back from the numbering. */
  function FaceOfImage(n: nat): (f: Face)
    requires 1 <= n <= 52
  {
    var s := Suits[(n - 1) % 4];
    if n <= 4 then (Ace, s) else (Ranks[13 - (n - 1) / 4], s)
  }

  /** The numbering loses nothing: the face can be read back from it. */
  lemma ImageNumberRoundTrip(c: Card)
    ensures FaceOfImage(ImageNumber(c)) == FaceOf(c)
  {
    OrdinalsInvert();
  }

  /** Every number from 1 to 52 names the image of exactly the face it reads back as. */
  lemma ImageNumberOnto(n: nat)
    requires 1 <= n <= 52
    ensures var f := FaceOfImage(n); ImageNumber(NewCard(f.0, f.1)) == n
  {
    OrdinalsInvert();
    var s := (n - 1) % 4;
    assert SuitOrdinal(Suits[s]) == s;
    if n > 4 {
      var r := 13 - (n - 1) / 4;
      assert RankOrdinal(Ranks[r]) == r;
    }
  }

  /** Two cards share a face image exactly when they share rank and suit. */
  lemma ImageNumberInjective(a: Card, b: Card)
    ensures ImageNumber(a) == ImageNumber(b) <==> FaceOf(a) == FaceOf(b)
  {
    ImageNumberRoundTrip(a);
    ImageNumberRoundTrip(b);
  }

  function Digit(d: nat): (ch: char)
    requires d < 10
    ensures IsDigit(ch) && ch as int - '0' as int == d
  {
    ('0' as int + d) as char
  }

  predicate IsDigit(ch: char)
  {
    '0' as int <= ch as int <= '9' as int
  }

  /** Decimal notation of `n`, as Java's string concatenation prints an int. */
  function DecimalString(n: nat): (s: string)
    ensures |s| > 0 && forall i :: 0 <= i < |s| ==> IsDigit(s[i])
    decreases n
  {
    if n < 10 then [Digit(n)] else DecimalString(n / 10) + [Digit(n % 10)]
  }

  /** The number a string of decimal digits denotes. */
  function DecimalValue(s: string): nat
    requires forall i :: 0 <= i < |s| ==> IsDigit(s[i])
  {
    if |s| == 0 then 0
    else
      assert IsDigit(s[|s| - 1]);
      10 * DecimalValue(s[..|s| - 1]) + (s[|s| - 1] as int - '0' as int)
  }

  /** Reading the decimal notation back gives the number. */
  lemma {:induction false} DecimalRoundTrip(n: nat)
    ensures DecimalValue(DecimalString(n)) == n
    decreases n
  {
    var s := DecimalString(n);
    if n >= 10 {
      DecimalRoundTrip(n / 10);
      assert s[..|s| - 1] == DecimalString(n / 10);
    }
  }

  /** `Klondike.imageFilename`; `sep` stands for the platform's file separator. */
  function ImageFilename(c: Card, sep: string): (f: string)
    ensures |f| > |Directory + sep|
    ensures f[..|Directory + sep|] == Directory + sep
  {
    if !c.faceUp then Directory + sep + BackImage
    else Directory + sep + DecimalString(ImageNumber(c)) + Extension
  }

  /** Every face-down card shows the back; a face-up one never does, and its
      name ends in the extension. */
  lemma BackIffFaceDown(c: Card, sep: string)
    ensures ImageFilename(c, sep) == Directory + sep + BackImage <==> !c.faceUp
    ensures c.faceUp ==> var f := ImageFilename(c, sep); f[|f| - 4..] == Extension
  {
    var pre := Directory + sep;
    if c.faceUp {
      var f := ImageFilename(c, sep);
      var ds := DecimalString(ImageNumber(c));
      assert f == pre + ds + Extension;
      assert f[|pre|] == ds[0];
      assert (pre + BackImage)[|pre|] == 'b';
      assert f[|f| - 4..] == Extension;
    }
  }

  /** Two face-up cards get the same file name exactly when they have the
      same rank and suit, whatever the separator. */
  lemma FilenameInjective(a: Card, b: Card, sep: string)
    requires a.faceUp && b.faceUp
    ensures ImageFilename(a, sep) == ImageFilename(b, sep) <==> FaceOf(a) == FaceOf(b)
  {
    ImageNumberInjective(a, b);
    var pre := Directory + sep;
    var da, db := DecimalString(ImageNumber(a)), DecimalString(ImageNumber(b));
    if ImageFilename(a, sep) == ImageFilename(b, sep) {
      var fa, fb := ImageFilename(a, sep), ImageFilename(b, sep);
      assert fa == pre + da + Extension && fb == pre + db + Extension;
      assert da == fa[|pre|..|fa| - 4];
      assert db == fb[|pre|..|fb| - 4];
      DecimalRoundTrip(ImageNumber(a));
      DecimalRoundTrip(ImageNumber(b));
    }
  }

  /** The THREE of HEARTS, face-up, is image 47. */
  lemma ThreeOfHeartsImage(sep: string)
    ensures ImageFilename(NewCard(Three, Hearts), sep) == "card-images" + sep + "47.png"
    ensures ImageFilename(Flip(NewCard(Three, Hearts)), sep) == "card-images" + sep + "b2fv.png"
  {
    assert ImageNumber(NewCard(Three, Hearts)) == 47;
    assert DecimalString(47) == "47";
  }
}

=== FILE: klondike_model.dfy ===
/** The Klondike rules engine: one stock (`deck`), one waste (`drawPile`), four
    foundations indexed by suit ordinal and seven tableau piles.  Every
    command is a pure transition from one game to the next.  An illegal move
    returns the game unchanged, with one exception: a move to the tableau
    from any pile but the waste turns the source's top card face-up even when
    no card moves (`MoveToTableauFromStock`). */
module KlondikeModel {
  import opened Cards
  import opened Decks

  datatype Game = Game(deck: Deck, drawPile: Deck, foundations: seq<Deck>, tableau: seq<Deck>)

  predicate WellShaped(g: Game)
  {
    |g.foundations| == 4 && |g.tableau| == 7
  }

  /** Names a pile of the game, the way the source passes pile references around. */
  datatype PileId = Stock | Waste | Foundation(i: int) | Tableau(i: int)

  predicate ValidId(id: PileId)
  {
    match id
    case Foundation(i) => 0 <= i < 4
    case Tableau(i) => 0 <= i < 7
    case _ => true
  }

  function Pile(g: Game, id: PileId): Deck
    requires WellShaped(g) && ValidId(id)
  {
    match id
    case Stock => g.deck
    case Waste => g.drawPile
    case Foundation(i) => g.foundations[i]
    case Tableau(i) => g.tableau[i]
  }

  /** Replaces one pile; every other pile is unchanged. */
  function WithPile(g: Game, id: PileId, d: Deck): (r: Game)
    requires WellShaped(g) && ValidId(id)
    ensures WellShaped(r) && Pile(r, id) == d
    ensures forall o :: ValidId(o) && o != id ==> Pile(r, o) == Pile(g, o)
  {
    match id
    case Stock => g.(deck := d)
    case Waste => g.(drawPile := d)
    case Foundation(i) => g.(foundations := g.foundations[i := d])
    case Tableau(i) => g.(tableau := g.tableau[i := d])
  }

  // ---------------------------------------------------------------------
  // Pile getters

  /** The foundation at index `i`; an index outside 0..3 overruns the array. */
  function GetFoundation(g: Game, i: int): (r: Result<Deck>)
    requires WellShaped(g)
    ensures r.Ok? <==> 0 <= i < 4
    ensures r.Ok? ==> r.value == Pile(g, Foundation(i))
  {
    if 0 <= i < 4 then Ok(g.foundations[i]) else Err(IndexOutOfBounds(i))
  }

  /** The foundation built on `s`. */
  function FoundationOf(g: Game, s: Suit): (d: Deck)
    requires WellShaped(g)
    ensures GetFoundation(g, SuitOrdinal(s)) == Ok(d)
  {
    g.foundations[SuitOrdinal(s)]
  }

  /** The tableau pile at index `i`; an index outside 0..6 overruns the array. */
  function GetTableau(g: Game, i: int): (r: Result<Deck>)
    requires WellShaped(g)
    ensures r.Ok? <==> 0 <= i < 7
    ensures r.Ok? ==> r.value == Pile(g, Tableau(i))
  {
    if 0 <= i < 7 then Ok(g.tableau[i]) else Err(IndexOutOfBounds(i))
  }

  // ---------------------------------------------------------------------
  // All cards of a game

  /** The thirteen piles in a fixed order. */
  function AllPiles(g: Game): seq<Deck>
  {
    [g.deck, g.drawPile] + g.foundations + g.tableau
  }

  function Slot(id: PileId): nat
    requires ValidId(id)
  {
    match id
    case Stock => 0
    case Waste => 1
    case Foundation(i) => 2 + i
    case Tableau(i) => 6 + i
  }

  lemma AllPilesSlot(g: Game, id: PileId)
    requires WellShaped(g) && ValidId(id)
    ensures |AllPiles(g)| == 13 && Slot(id) < 13
    ensures AllPiles(g)[Slot(id)] == Pile(g, id)
  {
  }

  lemma AllPilesWith(g: Game, id: PileId, d: Deck)
    requires WellShaped(g) && ValidId(id)
    ensures AllPiles(WithPile(g, id, d)) == AllPiles(g)[Slot(id) := d]
  {
  }

  lemma SlotInjective(a: PileId, b: PileId)
    requires ValidId(a) && ValidId(b) && a != b
    ensures Slot(a) != Slot(b)
  {
  }

  /** The faces held by a sequence of piles. */
  function SumKeys(ps: seq<Deck>): multiset<Face>
  {
    if |ps| == 0 then multiset{} else SumKeys(ps[..|ps| - 1]) + Keys(ps[|ps| - 1])
  }

  lemma {:induction false} SumKeysAppend(a: seq<Deck>, b: seq<Deck>)
    ensures SumKeys(a + b) == SumKeys(a) + SumKeys(b)
    decreases |b|
  {
    if |b| > 0 {
      assert (a + b)[..|a + b| - 1] == a + b[..|b| - 1];
      SumKeysAppend(a, b[..|b| - 1]);
    } else {
      assert a + b == a;
    }
  }

  /** Adding the same faces on both sides of an exchange keeps it balanced. */
  lemma ExchangeExtend(a: multiset<Face>, a2: multiset<Face>, x: multiset<Face>, y: multiset<Face>, d: multiset<Face>)
    requires a2 + x == a + d
    ensures a2 + y + x == a + y + d
  {
    forall e ensures (a2 + y + x)[e] == (a + y + d)[e] {
      assert (a2 + x)[e] == (a + d)[e];
    }
  }

  /** Replacing pile `i` takes its faces out and puts the new pile's in. */
  lemma {:induction false} SumKeysUpdate(ps: seq<Deck>, i: nat, d: Deck)
    requires i < |ps|
    ensures SumKeys(ps[i := d]) + Keys(ps[i]) == SumKeys(ps) + Keys(d)
    decreases |ps|
  {
    var n := |ps| - 1;
    if i < n {
      SumKeysUpdate(ps[..n], i, d);
      SumKeysUpdateBelow(ps, i, d);
    } else {
      SumKeysUpdateLast(ps, d);
    }
  }

  /** The step of `SumKeysUpdate` for a pile below the last one. */
  lemma SumKeysUpdateBelow(ps: seq<Deck>, i: nat, d: Deck)
    requires i < |ps| - 1
    requires SumKeys(ps[..|ps| - 1][i := d]) + Keys(ps[i]) == SumKeys(ps[..|ps| - 1]) + Keys(d)
    ensures SumKeys(ps[i := d]) + Keys(ps[i]) == SumKeys(ps) + Keys(d)
  {
    var n := |ps| - 1;
    var qs := ps[i := d];
    assert qs[..n] == ps[..n][i := d];
    assert SumKeys(qs) == SumKeys(qs[..n]) + Keys(ps[n]);
    assert SumKeys(ps) == SumKeys(ps[..n]) + Keys(ps[n]);
    ExchangeExtend(SumKeys(ps[..n]), SumKeys(qs[..n]), Keys(ps[i]), Keys(ps[n]), Keys(d));
  }

  /** `SumKeysUpdate` for the last pile. */
  lemma SumKeysUpdateLast(ps: seq<Deck>, d: Deck)
    requires |ps| > 0
    ensures SumKeys(ps[|ps| - 1 := d]) + Keys(ps[|ps| - 1]) == SumKeys(ps) + Keys(d)
  {
    var n := |ps| - 1;
    var qs := ps[n := d];
    assert qs[..n] == ps[..n];
    assert SumKeys(qs) == SumKeys(ps[..n]) + Keys(d);
  }

  /** The last pile adds its own size to the faces of the piles below it. */
  lemma SumKeysSizeLast(ps: seq<Deck>)
    requires |ps| > 0
    ensures |SumKeys(ps)| == |SumKeys(ps[..|ps| - 1])| + |ps[|ps| - 1]|
  {
    KeysSize(ps[|ps| - 1]);
  }

  /** Two different piles together hold no more cards than the whole game. */
  lemma {:induction false} SumKeysTwoPiles(ps: seq<Deck>, i: nat, j: nat)
    requires i < |ps| && j < |ps| && i != j
    ensures |ps[i]| + |ps[j]| <= |SumKeys(ps)|
    decreases |ps|
  {
    var n := |ps| - 1;
    SumKeysSizeLast(ps);
    var below := ps[..n];
    if i == n {
      assert below[j] == ps[j];
      SumKeysOnePile(below, j);
    } else if j == n {
      assert below[i] == ps[i];
      SumKeysOnePile(below, i);
    } else {
      assert below[i] == ps[i] && below[j] == ps[j];
      SumKeysTwoPiles(below, i, j);
    }
  }

  lemma {:induction false} SumKeysOnePile(ps: seq<Deck>, i: nat)
    requires i < |ps|
    ensures |ps[i]| <= |SumKeys(ps)|
    decreases |ps|
  {
    var n := |ps| - 1;
    SumKeysSizeLast(ps);
    if i < n {
      SumKeysOnePile(ps[..n], i);
    }
  }

  /** Every face held anywhere in the game. */
  function Total(g: Game): multiset<Face>
  {
    SumKeys(AllPiles(g))
  }

  /** The faces of one complete deck. */
  function FullDeck(): multiset<Face>
  {
    Keys(StandardDeck())
  }

  /** Moving cards between two different piles, so that the two piles keep
      their faces between them, keeps the faces of the whole game. */
  lemma TransferKeepsTotal(g: Game, a: PileId, b: PileId, da: Deck, db: Deck)
    requires WellShaped(g) && ValidId(a) && ValidId(b) && a != b
    requires Keys(da) + Keys(db) == Keys(Pile(g, a)) + Keys(Pile(g, b))
    ensures Total(WithPile(WithPile(g, a, da), b, db)) == Total(g)
  {
    var g1 := WithPile(g, a, da);
    AllPilesWith(g, a, da);
    AllPilesWith(g1, b, db);
    AllPilesSlot(g, a);
    AllPilesSlot(g, b);
    SlotInjective(a, b);
    SumKeysUpdate(AllPiles(g), Slot(a), da);
    SumKeysUpdate(AllPiles(g1), Slot(b), db);
    var g2 := WithPile(g1, b, db);
    forall e ensures Total(g2)[e] == Total(g)[e] {
      assert (Total(g2) + Keys(Pile(g, b)))[e] == (Total(g1) + Keys(db))[e];
      assert (Total(g1) + Keys(Pile(g, a)))[e] == (Total(g) + Keys(da))[e];
      assert (Keys(da) + Keys(db))[e] == (Keys(Pile(g, a)) + Keys(Pile(g, b)))[e];
    }
  }

  /** Two different piles of a game hold at most as many cards as the game. */
  lemma TwoPilesFit(g: Game, a: PileId, b: PileId)
    requires WellShaped(g) && ValidId(a) && ValidId(b) && a != b
    ensures |Pile(g, a)| + |Pile(g, b)| <= |Total(g)|
  {
    AllPilesSlot(g, a);
    AllPilesSlot(g, b);
    SlotInjective(a, b);
    SumKeysTwoPiles(AllPiles(g), Slot(a), Slot(b));
  }

  // ---------------------------------------------------------------------
  // Turning the top card

  /** If the top card is face-down, turn it face-up. */
  function TurnUpTop(d: Deck): (r: Deck)
    ensures |r| == |d| && Keys(r) == Keys(d)
    ensures |d| > 0 ==> r[..|d| - 1] == d[..|d| - 1] && r[|d| - 1] == TurnUp(d[|d| - 1])
    ensures |d| == 0 || d[|d| - 1].faceUp ==> r == d
  {
    if |d| == 0 then d
    else
      KeysUpdate(d, |d| - 1, TurnUp(d[|d| - 1]));
      d[|d| - 1 := TurnUp(d[|d| - 1])]
  }

  /** If the top card is face-up, turn it face-down. */
  function TurnDownTop(d: Deck): (r: Deck)
    ensures |r| == |d| && Keys(r) == Keys(d)
    ensures |d| > 0 ==> r[..|d| - 1] == d[..|d| - 1] && r[|d| - 1] == TurnDown(d[|d| - 1])
  {
    if |d| == 0 then d
    else
      KeysUpdate(d, |d| - 1, TurnDown(d[|d| - 1]));
      d[|d| - 1 := TurnDown(d[|d| - 1])]
  }

  // ---------------------------------------------------------------------
  // What a game keeps true

  /** A foundation of suit `s`: ACE, TWO, ... of `s`, face-up, bottom first. */
  predicate Built(f: seq<Card>, s: Suit)
  {
    |f| <= |Ranks| && forall i :: 0 <= i < |f| ==> f[i] == Card(Ranks[i], s, true)
  }

  /** A tableau pile: a non-empty pile shows its top card, face-down cards lie
      only below the face-up ones, and every face-up card but the lowest may
      lie on the card beneath it. */
  predicate Ordered(p: seq<Card>)
  {
    && (|p| > 0 ==> p[|p| - 1].faceUp)
    && (forall i, j :: 0 <= i < j < |p| && p[i].faceUp ==> p[j].faceUp)
    && (forall k :: 0 <= k < |p| - 1 && p[k].faceUp ==> Successor(p[k + 1], Some(p[k])))
  }

  /** The rules' invariant: the thirteen piles hold one complete deck between
      them, the stock is face-down, the waste face-up, each foundation is
      built up from the ACE of its own suit and each tableau pile is ordered. */
  predicate Invariant(g: Game)
  {
    && WellShaped(g)
    && Total(g) == FullDeck()
    && AllFaceDown(g.deck)
    && AllFaceUp(g.drawPile)
    && (forall k :: 0 <= k < 4 ==> Built(g.foundations[k], Suits[k]))
    && (forall t :: 0 <= t < 7 ==> Ordered(g.tableau[t]))
  }

  // ---------------------------------------------------------------------
  // The deal

  /** Cards dealt into the first `t` tableau piles: 1 + 2 + ... + t. */
  function Dealt(t: nat): nat
  {
    if t == 0 then 0 else Dealt(t - 1) + t
  }

  lemma {:induction false} DealtMonotone(a: nat, b: nat)
    requires a <= b
    ensures Dealt(a) <= Dealt(b)
    decreases b
  {
    if a < b {
      DealtMonotone(a, b - 1);
    }
  }

  /** Exactly the top card is face-up. */
  predicate OnlyTopFaceUp(p: seq<Card>)
  {
    forall k :: 0 <= k < |p| ==> (p[k].faceUp <==> k == |p| - 1)
  }

  predicate AllFaceDown(p: seq<Card>)
  {
    forall k :: 0 <= k < |p| ==> !p[k].faceUp
  }

  predicate AllFaceUp(p: seq<Card>)
  {
    forall k :: 0 <= k < |p| ==> p[k].faceUp
  }

  /** Faces every card of the deck down, bottom to top. */
  method FaceAllDown(d: Deck) returns (r: Deck)
    ensures |r| == |d| && Keys(r) == Keys(d) && AllFaceDown(r)
    ensures forall k :: 0 <= k < |d| ==> FaceOf(r[k]) == FaceOf(d[k])
  {
    r := d;
    var i := 0;
    while i < |r|
      invariant 0 <= i <= |r| == |d| && Keys(r) == Keys(d)
      invariant forall k :: 0 <= k < i ==> !r[k].faceUp
      invariant forall k :: 0 <= k < |d| ==> FaceOf(r[k]) == FaceOf(d[k])
    {
      if r[i].faceUp {
        KeysUpdate(r, i, Flip(r[i]));
        r := r[i := Flip(r[i])];
      }
      i := i + 1;
    }
  }

  /** One step of dealing: the stock's top card moves onto `pile`, and is
      turned face-up when it is the pile's `last` card. */
  function DealOne(rest: Deck, pile: Deck, last: bool): (r: (Deck, Deck))
    requires |rest| > 0 && |pile| < Capacity
    ensures r.0 == rest[..|rest| - 1]
    ensures |r.1| == |pile| + 1 && r.1[..|pile|] == pile
    ensures FaceOf(r.1[|pile|]) == FaceOf(rest[|rest| - 1])
    ensures r.1[|pile|].faceUp == (last || rest[|rest| - 1].faceUp)
    ensures Keys(r.0) + Keys(r.1) == Keys(rest) + Keys(pile)
  {
    var n := |rest| - 1;
    var m := MoveTop(rest, pile);
    assert m == (rest[..n], pile + rest[n..]) by { assert rest[n..] == [rest[n]]; }
    SplitKeys(rest, pile, n);
    if last then (m.0, TurnUpTop(m.1)) else m
  }

  /** Deals tableau pile `t` from the top of `d`: `t + 1` cards, the last one
      turned face-up. */
  method DealPile(d: Deck, t: nat) returns (rest: Deck, pile: Deck)
    requires t < |d| && AllFaceDown(d)
    ensures |rest| == |d| - (t + 1) && |pile| == t + 1
    ensures AllFaceDown(rest) && OnlyTopFaceUp(pile)
    ensures Keys(rest) + Keys(pile) == Keys(d)
    ensures rest == d[..|d| - (t + 1)]
    ensures forall k :: 0 <= k <= t ==> FaceOf(pile[k]) == FaceOf(d[|d| - 1 - k])
  {
    rest, pile := d, [];
    var j := 0;
    while j <= t
      invariant 0 <= j <= t + 1 && |pile| == j
      invariant rest == d[..|d| - j]
      invariant forall k :: 0 <= k < j ==> FaceOf(pile[k]) == FaceOf(d[|d| - 1 - k])
      invariant forall k :: 0 <= k < j ==> (pile[k].faceUp <==> k == t)
      invariant Keys(rest) + Keys(pile) == Keys(d)
    {
      DealPileStep(d, rest, pile, t);
      var step := DealOne(rest, pile, j == t);
      rest, pile := step.0, step.1;
      j := j + 1;
    }
  }

  /** One step of `DealPile` keeps its loop invariants. */
  lemma DealPileStep(d: Deck, rest: Deck, pile: Deck, t: nat)
    requires t < |d| && AllFaceDown(d) && |pile| <= t
    requires rest == d[..|d| - |pile|]
    requires forall k :: 0 <= k < |pile| ==> FaceOf(pile[k]) == FaceOf(d[|d| - 1 - k])
    requires forall k :: 0 <= k < |pile| ==> (pile[k].faceUp <==> k == t)
    requires Keys(rest) + Keys(pile) == Keys(d)
    ensures |rest| > 0 && |pile| < Capacity
    ensures var r := DealOne(rest, pile, |pile| == t);
      && |r.1| == |pile| + 1
      && r.0 == d[..|d| - |r.1|]
      && (forall k :: 0 <= k < |r.1| ==> FaceOf(r.1[k]) == FaceOf(d[|d| - 1 - k]))
      && (forall k :: 0 <= k < |r.1| ==> (r.1[k].faceUp <==> k == t))
      && Keys(r.0) + Keys(r.1) == Keys(d)
  {
    assert !rest[|rest| - 1].faceUp by { assert rest[|rest| - 1] == d[|d| - 1 - |pile|]; }
    DealOneFaces(d, rest, pile, |pile| == t);
    DealOneFlags(rest, pile, t);
  }

  /** A deal step keeps the stock a prefix of `d` and the pile the cards
      taken from `d`'s top, in taking order. */
  lemma DealOneFaces(d: Deck, rest: Deck, pile: Deck, last: bool)
    requires |pile| < |d| && rest == d[..|d| - |pile|]
    requires forall k :: 0 <= k < |pile| ==> FaceOf(pile[k]) == FaceOf(d[|d| - 1 - k])
    ensures var r := DealOne(rest, pile, last);
      && r.0 == d[..|d| - (|pile| + 1)]
      && forall k :: 0 <= k <= |pile| ==> FaceOf(r.1[k]) == FaceOf(d[|d| - 1 - k])
  {
    var r := DealOne(rest, pile, last);
    forall k | 0 <= k < |pile|
      ensures r.1[k] == pile[k]
    {
      assert r.1[..|pile|][k] == pile[k];
    }
  }

  /** A deal step from a face-down stock leaves face-up exactly the card at
      position `t`. */
  lemma DealOneFlags(rest: Deck, pile: Deck, t: nat)
    requires |rest| > 0 && !rest[|rest| - 1].faceUp && |pile| <= t && |pile| < Capacity
    requires forall k :: 0 <= k < |pile| ==> (pile[k].faceUp <==> k == t)
    ensures var r := DealOne(rest, pile, |pile| == t);
      forall k :: 0 <= k <= |pile| ==> (r.1[k].faceUp <==> k == t)
  {
    var r := DealOne(rest, pile, |pile| == t);
    forall k | 0 <= k < |pile|
      ensures r.1[k] == pile[k]
    {
      assert r.1[..|pile|][k] == pile[k];
    }
  }

  /** Pile `p` is tableau pile `u` as the deal lays it out from the top of
      `d`: `u + 1` cards with only the top face-up, its card `k` being the
      `k`-th card taken after the `Dealt(u)` cards of the piles before it. */
  predicate PileDealt(d: Deck, p: Deck, u: nat)
    requires |d| == Capacity
  {
    && |p| == u + 1 && OnlyTopFaceUp(p)
    && forall k :: 0 <= k <= u ==>
         Dealt(u) + k < 28 && FaceOf(p[k]) == FaceOf(d[Capacity - 1 - Dealt(u) - k])
  }

  /** Deals the seven tableau piles, pile `t` getting `t + 1` cards from the
      top of the stock; the 24 bottom cards stay in the stock in order. */
  method DealTableau(d: Deck) returns (rest: Deck, tableau: seq<Deck>)
    requires |d| == Capacity && AllFaceDown(d)
    ensures |tableau| == 7 && forall t :: 0 <= t < 7 ==> PileDealt(d, tableau[t], t)
    ensures |rest| == Capacity - 28 && AllFaceDown(rest) && rest == d[..Capacity - 28]
    ensures Keys(rest) + SumKeys(tableau) == Keys(d)
  {
    rest, tableau := d, [];
    var t := 0;
    while t < 7
      invariant 0 <= t <= 7 && |tableau| == t
      invariant |rest| == Capacity - Dealt(t) && AllFaceDown(rest)
      invariant rest == d[..Capacity - Dealt(t)]
      invariant forall u :: 0 <= u < t ==> PileDealt(d, tableau[u], u)
      invariant Keys(rest) + SumKeys(tableau) == Keys(d)
    {
      DealtMonotone(t + 1, 7);
      var before := rest;
      var pile;
      rest, pile := DealPile(rest, t);
      DealRound(d, before, rest, pile, tableau);
      DealKeysStep(d, before, rest, pile, tableau);
      tableau := tableau + [pile];
      t := t + 1;
    }
  }

  /** One round of the deal keeps the loop's invariants about positions. */
  lemma DealRound(d: Deck, before: Deck, rest: Deck, pile: Deck, tableau: seq<Deck>)
    requires |d| == Capacity && Dealt(|tableau| + 1) <= 28
    requires before == d[..Capacity - Dealt(|tableau|)]
    requires forall u :: 0 <= u < |tableau| ==> PileDealt(d, tableau[u], u)
    requires |pile| == |tableau| + 1 && OnlyTopFaceUp(pile)
    requires rest == before[..|before| - (|tableau| + 1)]
    requires forall k :: 0 <= k <= |tableau| ==> FaceOf(pile[k]) == FaceOf(before[|before| - 1 - k])
    ensures rest == d[..Capacity - Dealt(|tableau| + 1)]
    ensures forall u :: 0 <= u < |tableau| + 1 ==> PileDealt(d, (tableau + [pile])[u], u)
  {
    var t := |tableau|;
    DealtPileFaces(d, before, pile, t);
    DealTableauStep(d, tableau, pile);
    DealtPrefix(d, before, rest, t);
  }

  lemma DealTableauStep(d: Deck, tableau: seq<Deck>, pile: Deck)
    requires |d| == Capacity
    requires forall u :: 0 <= u < |tableau| ==> PileDealt(d, tableau[u], u)
    requires PileDealt(d, pile, |tableau|)
    ensures forall u :: 0 <= u <= |tableau| ==> PileDealt(d, (tableau + [pile])[u], u)
  {
    assert forall u :: 0 <= u < |tableau| ==> (tableau + [pile])[u] == tableau[u];
  }

  /** Dealing one more pile from the stock keeps every face of `d` in the
      stock or the tableau. */
  lemma DealKeysStep(d: Deck, before: Deck, rest: Deck, pile: Deck, tableau: seq<Deck>)
    requires Keys(rest) + Keys(pile) == Keys(before)
    requires Keys(before) + SumKeys(tableau) == Keys(d)
    ensures Keys(rest) + SumKeys(tableau + [pile]) == Keys(d)
  {
    SumKeysPush(tableau, pile);
    MoveIntoSum(Keys(rest), Keys(pile), Keys(before), SumKeys(tableau), Keys(d));
  }

  /** Moving part `p` of `b` into the other summand `s` keeps the total. */
  lemma MoveIntoSum(r: multiset<Face>, p: multiset<Face>, b: multiset<Face>, s: multiset<Face>, total: multiset<Face>)
    requires r + p == b && b + s == total
    ensures r + (s + p) == total
  {
    assert r + (s + p) == (r + p) + s;
  }

  /** After pile `t` the stock is the bottom `Capacity - Dealt(t + 1)` cards of `d`. */
  lemma DealtPrefix(d: Deck, before: Deck, rest: Deck, t: nat)
    requires |d| == Capacity && Dealt(t + 1) <= Capacity
    requires before == d[..Capacity - Dealt(t)] && rest == before[..|before| - (t + 1)]
    ensures rest == d[..Capacity - Dealt(t + 1)]
  {
    assert Dealt(t + 1) == Dealt(t) + t + 1;
  }

  lemma SumKeysPush(ps: seq<Deck>, p: Deck)
    ensures SumKeys(ps + [p]) == SumKeys(ps) + Keys(p)
  {
    assert (ps + [p])[..|ps|] == ps;
  }

  /** The cards of pile `t` are the `t + 1` cards above the `Dealt(t)` dealt
      before it. */
  lemma DealtPileFaces(d: Deck, before: Deck, pile: Deck, t: nat)
    requires |d| == Capacity && Dealt(t + 1) <= 28
    requires before == d[..Capacity - Dealt(t)]
    requires |pile| == t + 1 && OnlyTopFaceUp(pile)
    requires forall k :: 0 <= k <= t ==> FaceOf(pile[k]) == FaceOf(before[|before| - 1 - k])
    ensures PileDealt(d, pile, t)
  {
    var n := Dealt(t);
    assert Dealt(t + 1) == n + t + 1;
    forall k | 0 <= k <= t
      ensures n + k < 28 && FaceOf(pile[k]) == FaceOf(d[Capacity - 1 - n - k])
    {
      assert before[|before| - 1 - k] == d[Capacity - 1 - n - k];
    }
  }

  lemma {:induction false} SumKeysEmpty(ps: seq<Deck>)
    requires forall i :: 0 <= i < |ps| ==> ps[i] == []
    ensures SumKeys(ps) == multiset{}
    decreases |ps|
  {
    if |ps| > 0 {
      SumKeysEmpty(ps[..|ps| - 1]);
      assert Faces(ps[|ps| - 1]) == [];
    }
  }

  /** The faces of a game whose foundations are empty. */
  lemma TotalNoFoundations(g: Game)
    requires g.foundations == [[], [], [], []]
    ensures Total(g) == Keys(g.deck) + Keys(g.drawPile) + SumKeys(g.tableau)
  {
    var fs := g.foundations;
    SumKeysAppend([g.deck, g.drawPile] + fs, g.tableau);
    SumKeysAppend([g.deck, g.drawPile], fs);
    assert [g.deck, g.drawPile][..1] == [g.deck];
    assert [g.deck][..0] == [];
    assert SumKeys([g.deck]) == Keys(g.deck);
    assert SumKeys([g.deck, g.drawPile]) == Keys(g.deck) + Keys(g.drawPile);
    SumKeysEmpty(fs);
  }

  /** The constructor: fill, shuffle (`picks` are the random draws), face
      everything down, deal seven tableau piles of 1..7 cards with only their
      top card face-up, leave the foundations empty and draw one card. */
  method NewGame(picks: seq<int>) returns (g: Game)
    requires ValidPicks(picks, Capacity)
    ensures WellShaped(g)
    ensures forall t :: 0 <= t < 7 ==> |g.tableau[t]| == t + 1 && OnlyTopFaceUp(g.tableau[t])
    ensures forall k :: 0 <= k < 4 ==> g.foundations[k] == []
    ensures |g.drawPile| == 1 && AllFaceUp(g.drawPile)
    ensures |g.deck| == 23 && AllFaceDown(g.deck)
    ensures Total(g) == FullDeck()
    ensures Invariant(g)
  {
    var d := ShuffledDown(picks);
    g := DealGame(d);
  }

  /** The constructor's deal from a full face-down deck: the seven tableau
      piles, empty foundations and one card drawn. */
  method DealGame(d: Deck) returns (g: Game)
    requires |d| == Capacity && AllFaceDown(d) && Keys(d) == FullDeck()
    ensures WellShaped(g)
    ensures forall t :: 0 <= t < 7 ==> |g.tableau[t]| == t + 1 && OnlyTopFaceUp(g.tableau[t])
    ensures forall k :: 0 <= k < 4 ==> g.foundations[k] == []
    ensures |g.drawPile| == 1 && AllFaceUp(g.drawPile)
    ensures |g.deck| == 23 && AllFaceDown(g.deck)
    ensures Total(g) == Keys(d)
    ensures Invariant(g)
  {
    var rest, tableau := DealTableau(d);
    var first := FirstDraw(rest);
    g := Game(first.0, first.1, [[], [], [], []], tableau);
    DealtTotal(g, d, rest);
    DealtGameInvariant(g);
  }

  /** The constructor's first steps: a full deck, shuffled by `picks` and
      turned face-down. */
  method ShuffledDown(picks: seq<int>) returns (d: Deck)
    requires ValidPicks(picks, Capacity)
    ensures |d| == Capacity && AllFaceDown(d) && Keys(d) == FullDeck()
    ensures forall k :: 0 <= k < Capacity ==>
      FaceOf(d[k]) == FaceOf(ShuffleSteps(StandardDeck(), picks, Capacity)[k])
  {
    d := Fill();
    d := Shuffle(d, picks);
    d := FaceAllDown(d);
  }

  /** The constructor's last step: the stock's top card goes face-up onto an
      empty waste. */
  function FirstDraw(rest: Deck): (r: (Deck, Deck))
    requires |rest| > 0 && AllFaceDown(rest)
    ensures |r.0| == |rest| - 1 && AllFaceDown(r.0)
    ensures |r.1| == 1 && AllFaceUp(r.1)
    ensures Keys(r.0) + Keys(r.1) == Keys(rest)
    ensures r.0 == rest[..|rest| - 1]
    ensures r.1 == [TurnUp(rest[|rest| - 1])]
  {
    var m := MoveTop(rest, []);
    var top := rest[|rest| - 1];
    assert m.0 == rest[..|rest| - 1] && m.1 == [top];
    FirstDrawKeys(rest, m.1);
    var up := TurnUpTop(m.1);
    assert up == [TurnUp(top)];
    (m.0, up)
  }

  lemma FirstDrawKeys(rest: Deck, drawn: Deck)
    requires |rest| > 0 && drawn == [rest[|rest| - 1]]
    ensures Keys(rest[..|rest| - 1]) + Keys(drawn) == Keys(rest)
  {
    assert rest[|rest| - 1..] == drawn;
    KeysSplit(rest, |rest| - 1);
  }

  /** The constructor's piles hold the faces of the deck it dealt from. */
  lemma DealtTotal(g: Game, d: Deck, rest: Deck)
    requires g.foundations == [[], [], [], []]
    requires Keys(rest) + SumKeys(g.tableau) == Keys(d)
    requires Keys(g.deck) + Keys(g.drawPile) == Keys(rest)
    ensures Total(g) == Keys(d)
  {
    TotalNoFoundations(g);
  }

  /** A game laid out as the constructor lays it out satisfies the invariant. */
  lemma DealtGameInvariant(g: Game)
    requires WellShaped(g) && Total(g) == FullDeck()
    requires forall t :: 0 <= t < 7 ==> OnlyTopFaceUp(g.tableau[t])
    requires forall k :: 0 <= k < 4 ==> g.foundations[k] == []
    requires AllFaceUp(g.drawPile) && AllFaceDown(g.deck)
    ensures Invariant(g)
  {
    forall t | 0 <= t < 7
      ensures Ordered(g.tableau[t])
    {
      var p := g.tableau[t];
      assert OnlyTopFaceUp(p);
    }
  }

  // ---------------------------------------------------------------------
  // Drawing

  /** The waste read from its top down, every card face-down: the stock a
      recycle produces. */
  function ReversedDown(w: seq<Card>): (r: seq<Card>)
    ensures |r| == |w|
    ensures forall i :: 0 <= i < |w| ==> r[i] == TurnDown(w[|w| - 1 - i])
  {
    seq(|w|, i requires 0 <= i < |w| => TurnDown(w[|w| - 1 - i]))
  }

  lemma {:induction false} ReversedDownKeys(w: seq<Card>)
    ensures Keys(ReversedDown(w)) == Keys(w)
    decreases |w|
  {
    if |w| > 0 {
      var n := |w| - 1;
      assert ReversedDown(w) == [TurnDown(w[n])] + ReversedDown(w[..n]);
      ReversedDownKeys(w[..n]);
      KeysAppend([TurnDown(w[n])], ReversedDown(w[..n]));
      KeysAppend(w[..n], [w[n]]);
      assert w == w[..n] + [w[n]];
    }
  }

  /** One turn of the recycle loop, for piles that fit together in one deck. */
  lemma RecycleStep(waste: Deck, stock: Deck)
    requires |waste| > 0
    ensures MoveTop(waste, stock).0 == waste[..|waste| - 1]
    ensures |waste| + |stock| <= Capacity ==>
      TurnDownTop(MoveTop(waste, stock).1) == stock + [TurnDown(waste[|waste| - 1])]
    ensures stock + [TurnDown(waste[|waste| - 1])] + ReversedDown(waste[..|waste| - 1]) == stock + ReversedDown(waste)
  {
    var n := |waste| - 1;
    assert ReversedDown(waste) == [TurnDown(waste[n])] + ReversedDown(waste[..n]);
  }

  /** The recycle loop: while the waste has cards, move its top card to the
      stock and turn that card face-down. */
  function Recycle(waste: Deck, stock: Deck): (r: (Deck, Deck))
    ensures r.0 == []
    ensures |waste| + |stock| <= Capacity ==> r.1 == stock + ReversedDown(waste)
    decreases |waste|
  {
    if |waste| == 0 then
      assert stock + ReversedDown(waste) == stock;
      (waste, stock)
    else
      var moved := MoveTop(waste, stock);
      RecycleStep(waste, stock);
      Recycle(moved.0, TurnDownTop(moved.1))
  }

  /** `drawNextCard`: a non-empty stock gives its top card, face-up, to the
      waste; an empty stock takes the whole waste back, reversed and
      face-down.  The foundations and the tableau never change. */
  function DrawNext(g: Game): (r: Game)
    ensures r.foundations == g.foundations && r.tableau == g.tableau
    ensures |g.deck| > 0 ==> r.deck == g.deck[..|g.deck| - 1]
    ensures |g.deck| > 0 && |g.drawPile| < Capacity ==>
      r.drawPile == g.drawPile + [TurnUp(g.deck[|g.deck| - 1])]
    ensures |g.deck| == 0 ==> r.drawPile == [] && r.deck == ReversedDown(g.drawPile)
  {
    if |g.deck| > 0 then
      var (deck, drawPile) := MoveTop(g.deck, g.drawPile);
      g.(deck := deck, drawPile := TurnUpTop(drawPile))
    else
      var (drawPile, deck) := Recycle(g.drawPile, g.deck);
      g.(deck := deck, drawPile := drawPile)
  }

  /** `k` draws in a row. */
  function DrawTimes(g: Game, k: nat): Game
    decreases k
  {
    if k == 0 then g else DrawNext(DrawTimes(g, k - 1))
  }

  // ---------------------------------------------------------------------
  // Move legality

  /** Card `a` may lie directly on `b`: one rank lower and the other colour,
      or a KING on an empty pile. */
  function Successor(a: Card, b: Option<Card>): (r: bool)
    ensures r ==> (b.None? <==> a.rank == King)
    ensures r && b.Some? ==> b.value.rank != Ace && IsRed(a) != IsRed(b.value)
  {
    || (b.None? && a.rank == King)
    || (b.Some? && RankOrdinal(a.rank) == RankOrdinal(b.value.rank) - 1 && IsRed(a) != IsRed(b.value))
  }

  /** Foundation `k` accepts card `c` when `c` has suit ordinal `k` and is an ACE
      on an empty foundation or one rank above its top. */
  function FoundationAccepts(c: Option<Card>, f: Deck, k: int): (r: bool)
    ensures r <==>
      && c.Some? && 0 <= k < 4 && c.value.suit == Suits[k]
      && if |f| == 0 then c.value.rank == Ace
         else f[|f| - 1].rank != King && c.value.rank == Ranks[RankOrdinal(f[|f| - 1].rank) + 1]
  {
    OrdinalsInvert();
    && c.Some?
    && SuitOrdinal(c.value.suit) == k
    && ((|f| == 0 && c.value.rank == Ace)
        || (|f| > 0 && RankOrdinal(c.value.rank) == RankOrdinal(f[|f| - 1].rank) + 1))
  }

  // ---------------------------------------------------------------------
  // Moves

  /** `moveToFoundation`: a legal move puts the source's top card on the
      foundation and turns the source's new top face-up; anything else is a
      no-op. */
  function MoveToFoundation(g: Game, src: PileId, k: int): (r: Game)
    requires WellShaped(g) && ValidId(src)
    ensures WellShaped(r)
    ensures !(0 <= k < 4 && FoundationAccepts(TopCard(Pile(g, src)), g.foundations[k], k)) ==> r == g
    ensures 0 <= k < 4 && FoundationAccepts(TopCard(Pile(g, src)), g.foundations[k], k) ==>
      var s := Pile(g, src);
      && src != Foundation(k)
      && Pile(r, src) == TurnUpTop(s[..|s| - 1])
      && r.foundations[k] == Add(g.foundations[k], s[|s| - 1])
      && forall o :: ValidId(o) && o != src && o != Foundation(k) ==> Pile(r, o) == Pile(g, o)
  {
    if 0 <= k < 4 && FoundationAccepts(TopCard(Pile(g, src)), g.foundations[k], k) then
      var (s, f) := MoveTop(Pile(g, src), g.foundations[k]);
      WithPile(WithPile(g, src, TurnUpTop(s)), Foundation(k), f)
    else
      g
  }

  /** The source does not check that the card is face-up: an accepted card
      on top of a face-down stock goes onto the foundation face-down, and the
      foundation is no longer built. */
  lemma MoveToFoundationFromStock(g: Game, k: int)
    requires WellShaped(g) && 0 <= k < 4 && |g.deck| > 0 && |g.foundations[k]| < Capacity
    requires !g.deck[|g.deck| - 1].faceUp
    requires FoundationAccepts(Some(g.deck[|g.deck| - 1]), g.foundations[k], k)
    ensures var f := MoveToFoundation(g, Stock, k).foundations[k];
      && |f| == |g.foundations[k]| + 1
      && f[|f| - 1] == g.deck[|g.deck| - 1] && !f[|f| - 1].faceUp
      && !Built(f, Suits[k])
  {
    var c := g.deck[|g.deck| - 1];
    assert TopCard(Pile(g, Stock)) == Some(c);
    var f := MoveToFoundation(g, Stock, k).foundations[k];
    assert f == g.foundations[k] + [c];
    if |f| <= |Ranks| {
      assert f[|f| - 1] != Card(Ranks[|f| - 1], Suits[k], true);
    }
  }

  /** Start of the contiguous face-up run that ends just below index `i`. */
  function RunBelow(s: seq<Card>, i: nat): (b: nat)
    requires i <= |s|
    ensures b <= i
    ensures forall k :: b <= k < i ==> s[k].faceUp
    ensures b > 0 ==> !s[b - 1].faceUp
    decreases i
  {
    if i == 0 || !s[i - 1].faceUp then i else RunBelow(s, i - 1)
  }

  /** Start of the contiguous face-up run at the top of a pile. */
  function RunStart(s: seq<Card>): (b: nat)
    ensures b <= |s|
    ensures forall k :: b <= k < |s| ==> s[k].faceUp
    ensures b > 0 ==> !s[b - 1].faceUp
  {
    RunBelow(s, |s|)
  }

  /** The scan of `klondikeMove` from index `i` downward while cards are
      face-up.  Each card that may lie on `c` (the destination's original
      top) sends it and everything above it across; the scan does not stop
      after a move. */
  function Scan(here: Deck, there: Deck, c: Option<Card>, i: int): (r: (Deck, Deck))
    requires i < |here|
    ensures |r.0| <= |here| && r.0 == here[..|r.0|]
    ensures |there| <= |r.1| && r.1[..|there|] == there
    decreases i + 1
  {
    if i < 0 || !here[i].faceUp then (here, there)
    else if Successor(here[i], c) then
      var (h, t) := MoveBlock(here, there, |here| - i).value;
      var r := Scan(h, t, c, i - 1);
      assert r.0 == here[..|r.0|] by { assert h == here[..i]; }
      assert r.1[..|there|] == t[..|there|];
      r
    else
      Scan(here, there, c, i - 1)
  }

  /** `klondikeMove(here, there)`: the source keeps a bottom part of its
      cards and the destination keeps its own cards at the bottom. */
  function KlondikeMove(here: Deck, there: Deck): (r: (Deck, Deck))
    ensures |r.0| <= |here| && r.0 == here[..|r.0|]
    ensures |there| <= |r.1| && r.1[..|there|] == there
  {
    Scan(here, there, TopCard(there), |here| - 1)
  }

  /** One step of the scan, for piles that fit together in one deck. */
  lemma ScanStep(here: Deck, there: Deck, c: Option<Card>, i: int)
    requires 0 <= i < |here| && here[i].faceUp && |here| + |there| <= Capacity
    ensures Successor(here[i], c) ==>
      |here[..i]| + |there + here[i..]| <= Capacity
      && Scan(here, there, c, i) == Scan(here[..i], there + here[i..], c, i - 1)
    ensures !Successor(here[i], c) ==> Scan(here, there, c, i) == Scan(here, there, c, i - 1)
  {
  }

  /** Where the scan over the bottom `m` cards of `p`, from index `i` down,
      leaves the source's top: each fitting face-up card cuts the source
      there. */
  function Cut(p: seq<Card>, c: Option<Card>, i: int, m: nat): (n: nat)
    requires -1 <= i < m <= |p|
    ensures n <= m
    decreases i + 1
  {
    if i < 0 || !p[i].faceUp then m
    else if Successor(p[i], c) then Cut(p, c, i - 1, i)
    else Cut(p, c, i - 1, m)
  }

  /** What the same scan piles onto destination `there`: each cut sends the
      cards between it and the previous cut. */
  function Gather(p: seq<Card>, there: seq<Card>, c: Option<Card>, i: int, m: nat): seq<Card>
    requires -1 <= i < m <= |p|
    decreases i + 1
  {
    if i < 0 || !p[i].faceUp then there
    else if Successor(p[i], c) then Gather(p, there + p[i..m], c, i - 1, i)
    else Gather(p, there, c, i - 1, m)
  }

  /** Within capacity the scan is described by `Cut` and `Gather`. */
  lemma {:induction false} ScanByCut(p: Deck, m: nat, there: Deck, c: Option<Card>, i: int)
    requires -1 <= i < m <= |p| && m + |there| <= Capacity
    ensures Scan(p[..m], there, c, i) == (p[..Cut(p, c, i, m)], Gather(p, there, c, i, m))
    decreases i + 1
  {
    var here := p[..m];
    if i >= 0 && here[i].faceUp {
      ScanStep(here, there, c, i);
      if Successor(p[i], c) {
        assert here[..i] == p[..i] && here[i..] == p[i..m];
        ScanByCut(p, i, there + p[i..m], c, i - 1);
      } else {
        ScanByCut(p, m, there, c, i - 1);
      }
    }
  }

  /** The destination keeps its own cards at the bottom and gains one card
      for each card cut from the source. */
  lemma {:induction false} GatherPrefix(p: seq<Card>, there: seq<Card>, c: Option<Card>, i: int, m: nat)
    requires -1 <= i < m <= |p|
    ensures var r := Gather(p, there, c, i, m);
      |r| == |there| + m - Cut(p, c, i, m) && r[..|there|] == there
    decreases i + 1
  {
    if i < 0 || !p[i].faceUp {
      assert there[..|there|] == there;
    } else if Successor(p[i], c) {
      var t1 := there + p[i..m];
      GatherPrefix(p, t1, c, i - 1, i);
      var r := Gather(p, t1, c, i - 1, i);
      assert r[..|there|] == r[..|t1|][..|there|];
    } else {
      GatherPrefix(p, there, c, i - 1, m);
    }
  }

  /** The destination gains exactly the faces cut from the source. */
  lemma {:induction false} GatherKeys(p: seq<Card>, there: seq<Card>, c: Option<Card>, i: int, m: nat)
    requires -1 <= i < m <= |p|
    ensures Keys(Gather(p, there, c, i, m)) == Keys(there) + Keys(p[Cut(p, c, i, m)..m])
    decreases i + 1
  {
    if i < 0 || !p[i].faceUp {
      assert Keys(p[m..m]) == multiset{} by { assert p[m..m] == []; }
    } else if Successor(p[i], c) {
      GatherKeys(p, there + p[i..m], c, i - 1, i);
      GatherKeysCut(p, there, c, i, m);
    } else {
      GatherKeys(p, there, c, i - 1, m);
    }
  }

  /** The step of `GatherKeys` at a card that cuts the source. */
  lemma GatherKeysCut(p: seq<Card>, there: seq<Card>, c: Option<Card>, i: nat, m: nat)
    requires i < m <= |p| && p[i].faceUp && Successor(p[i], c)
    requires var t := there + p[i..m];
      Keys(Gather(p, t, c, i - 1, i)) == Keys(t) + Keys(p[Cut(p, c, i - 1, i)..i])
    ensures Keys(Gather(p, there, c, i, m)) == Keys(there) + Keys(p[Cut(p, c, i, m)..m])
  {
    CutStepKeys(p, there, Cut(p, c, i - 1, i), i, m);
  }

  /** Moving `p[i..m]` first and then `p[n..i]` moves the faces of `p[n..m]`. */
  lemma CutStepKeys(p: seq<Card>, there: seq<Card>, n: nat, i: nat, m: nat)
    requires n <= i <= m <= |p|
    ensures Keys(there + p[i..m]) + Keys(p[n..i]) == Keys(there) + Keys(p[n..m])
  {
    KeysAppend(there, p[i..m]);
    KeysJoin(p, n, i, m);
    UnionSwap(Keys(there), Keys(p[i..m]), Keys(p[n..i]));
  }

  lemma UnionSwap(a: multiset<Face>, b: multiset<Face>, c: multiset<Face>)
    ensures a + b + c == a + (c + b)
  {
    forall e ensures (a + b + c)[e] == (a + (c + b))[e] {
    }
  }

  lemma KeysJoin(p: seq<Card>, a: nat, b: nat, e: nat)
    requires a <= b <= e <= |p|
    ensures Keys(p[a..e]) == Keys(p[a..b]) + Keys(p[b..e])
  {
    assert p[a..e] == p[a..b] + p[b..e];
    KeysAppend(p[a..b], p[b..e]);
  }

  /** The scan cuts nothing exactly when no card of the face-up stretch
      ending at `i` may lie on `c`. */
  lemma {:induction false} CutNoneIff(p: seq<Card>, c: Option<Card>, i: int, m: nat)
    requires -1 <= i < m <= |p|
    ensures Cut(p, c, i, m) == m <==> forall k :: RunBelow(p, i + 1) <= k <= i ==> !Successor(p[k], c)
    decreases i + 1
  {
    if i >= 0 && p[i].faceUp {
      assert RunBelow(p, i + 1) == RunBelow(p, i);
      if !Successor(p[i], c) {
        CutNoneIff(p, c, i - 1, m);
      }
    }
  }

  /** When the scan cuts, the cut is at the lowest card of the face-up
      stretch ending at `i` that may lie on `c`. */
  lemma {:induction false} CutPlace(p: seq<Card>, c: Option<Card>, i: int, m: nat)
    requires -1 <= i < m <= |p|
    ensures var n, lo := Cut(p, c, i, m), RunBelow(p, i + 1);
      n < m ==>
        && lo <= n <= i && Successor(p[n], c)
        && forall k :: lo <= k < n ==> !Successor(p[k], c)
    decreases i + 1
  {
    if i >= 0 && p[i].faceUp {
      assert RunBelow(p, i + 1) == RunBelow(p, i);
      if Successor(p[i], c) {
        CutPlace(p, c, i - 1, i);
        CutPlaceAt(p, c, i, m);
      } else {
        CutPlace(p, c, i - 1, m);
        CutPlacePast(p, c, i, m);
      }
    }
  }

  /** The step of `CutPlace` past a card `p[i]` that may not lie on `c`. */
  lemma CutPlacePast(p: seq<Card>, c: Option<Card>, i: nat, m: nat)
    requires i < m <= |p| && p[i].faceUp && !Successor(p[i], c)
    requires RunBelow(p, i + 1) == RunBelow(p, i)
    requires var n, lo := Cut(p, c, i - 1, m), RunBelow(p, i);
      n < m ==>
        && lo <= n <= i - 1 && Successor(p[n], c)
        && forall k :: lo <= k < n ==> !Successor(p[k], c)
    ensures var n, lo := Cut(p, c, i, m), RunBelow(p, i + 1);
      n < m ==>
        && lo <= n <= i && Successor(p[n], c)
        && forall k :: lo <= k < n ==> !Successor(p[k], c)
  {
  }

  /** The step of `CutPlace` at a card `p[i]` that may lie on `c`: the cut
      is the one the scan below `i` makes, or `i` itself if that makes none. */
  lemma CutPlaceAt(p: seq<Card>, c: Option<Card>, i: nat, m: nat)
    requires i < m <= |p| && p[i].faceUp && Successor(p[i], c)
    requires RunBelow(p, i + 1) == RunBelow(p, i)
    requires var n, lo := Cut(p, c, i - 1, i), RunBelow(p, i);
      n < i ==>
        && lo <= n <= i - 1 && Successor(p[n], c)
        && forall k :: lo <= k < n ==> !Successor(p[k], c)
    ensures var n, lo := Cut(p, c, i, m), RunBelow(p, i + 1);
      && lo <= n <= i && Successor(p[n], c)
      && forall k :: lo <= k < n ==> !Successor(p[k], c)
  {
    CutNoneIff(p, c, i - 1, i);
  }

  /** When the card at the cut is the only one of the stretch that may lie
      on `c`, the destination receives exactly the cards from the cut up to
      `m`, in their order. */
  lemma {:induction false} GatherInOrder(p: seq<Card>, there: seq<Card>, c: Option<Card>, i: int, m: nat)
    requires -1 <= i < m <= |p|
    requires forall k :: RunBelow(p, i + 1) <= k <= i && k != Cut(p, c, i, m) ==> !Successor(p[k], c)
    ensures Gather(p, there, c, i, m) == there + p[Cut(p, c, i, m)..m]
    decreases i + 1
  {
    if i < 0 || !p[i].faceUp {
      assert there + p[m..m] == there;
    } else {
      assert RunBelow(p, i + 1) == RunBelow(p, i);
      if Successor(p[i], c) {
        CutPlace(p, c, i - 1, i);
        GatherInOrderAt(p, there, c, i, m);
      } else {
        GatherInOrder(p, there, c, i - 1, m);
      }
    }
  }

  /** `GatherInOrder` when the top card `p[i]` of the stretch is the one
      that may lie on `c`: nothing below it may, so the scan sends exactly
      the cards from `i` up to `m`. */
  lemma GatherInOrderAt(p: seq<Card>, there: seq<Card>, c: Option<Card>, i: nat, m: nat)
    requires i < m <= |p| && p[i].faceUp && Successor(p[i], c)
    requires RunBelow(p, i + 1) == RunBelow(p, i)
    requires forall k :: RunBelow(p, i) <= k < i ==> !Successor(p[k], c)
    ensures Gather(p, there, c, i, m) == there + p[i..m]
  {
    CutNoneIff(p, c, i - 1, i);
    GatherPrefix(p, there + p[i..m], c, i - 1, i);
  }

  /** `klondikeMove` on piles that fit together in one deck: `here` keeps
      the cards below some cut inside its face-up run and `there` keeps its
      own cards at the bottom, with no card lost.  Nothing moves exactly when
      no face-up card may lie on `there`'s original top; otherwise the cut is
      the lowest face-up card that may, and if it is the only one, the cards
      from the cut up arrive on `there` in their order. */
  lemma KlondikeMoveEffect(here: Deck, there: Deck)
    requires |here| + |there| <= Capacity
    ensures var (h, t) := KlondikeMove(here, there);
      var c := TopCard(there);
      && RunStart(here) <= |h| <= |here| && h == here[..|h|]
      && |t| == |there| + |here| - |h| && t[..|there|] == there
      && Keys(h) + Keys(t) == Keys(here) + Keys(there)
      && (h == here <==> forall k :: RunStart(here) <= k < |here| ==> !Successor(here[k], c))
      && (|h| < |here| ==>
            Successor(here[|h|], c) && forall k :: RunStart(here) <= k < |h| ==> !Successor(here[k], c))
      && ((forall k :: RunStart(here) <= k < |here| && k != |h| ==> !Successor(here[k], c)) ==>
            t == there + here[|h|..])
  {
    KlondikeMoveByCut(here, there);
    WholeScanShape(here, there, TopCard(there));
    WholeScanCut(here, there, TopCard(there));
  }

  /** The scan of a whole pile `p` towards destination `there` with top `c`
      keeps a prefix of `p` no shorter than its face-up run, keeps `there` at
      the bottom of the destination and loses no card. */
  lemma WholeScanShape(p: seq<Card>, there: seq<Card>, c: Option<Card>)
    ensures var i, n := |p| - 1, |p|;
      var h, t := p[..Cut(p, c, i, n)], Gather(p, there, c, i, n);
      && RunStart(p) <= |h| <= |p| && h == p[..|h|]
      && |t| == |there| + |p| - |h| && t[..|there|] == there
      && Keys(h) + Keys(t) == Keys(p) + Keys(there)
  {
    var i, n := |p| - 1, |p|;
    var cut := Cut(p, c, i, n);
    GatherPrefix(p, there, c, i, n);
    GatherKeys(p, there, c, i, n);
    KeysSplit(p, cut);
    assert p[cut..n] == p[cut..];
    CutNoneIff(p, c, i, n);
    CutPlace(p, c, i, n);
  }

  /** The same scan cuts nothing exactly when no face-up card may lie on
      `c`; otherwise it cuts at the lowest face-up card that may, and if that
      card is the only one, the destination receives the cards from the cut
      up in their order. */
  lemma WholeScanCut(p: seq<Card>, there: seq<Card>, c: Option<Card>)
    ensures var i, n := |p| - 1, |p|;
      var h, t := p[..Cut(p, c, i, n)], Gather(p, there, c, i, n);
      && (h == p <==> forall k :: RunStart(p) <= k < |p| ==> !Successor(p[k], c))
      && (|h| < |p| ==>
            Successor(p[|h|], c) && forall k :: RunStart(p) <= k < |h| ==> !Successor(p[k], c))
      && ((forall k :: RunStart(p) <= k < |p| && k != |h| ==> !Successor(p[k], c)) ==>
            t == there + p[|h|..])
  {
    var i, n := |p| - 1, |p|;
    var cut := Cut(p, c, i, n);
    CutNoneIff(p, c, i, n);
    CutPlace(p, c, i, n);
    assert p[..n] == p;
    assert |p[..cut]| == cut;
    if forall k :: RunStart(p) <= k < n && k != cut ==> !Successor(p[k], c) {
      GatherInOrder(p, there, c, i, n);
    }
  }

  /** `klondikeMove` on piles within capacity, in terms of `Cut` and `Gather`. */
  lemma KlondikeMoveByCut(here: Deck, there: Deck)
    requires |here| + |there| <= Capacity
    ensures var c, i := TopCard(there), |here| - 1;
      KlondikeMove(here, there) == (here[..Cut(here, c, i, |here|)], Gather(here, there, c, i, |here|))
  {
    assert here[..|here|] == here;
    ScanByCut(here, |here|, there, TopCard(there), |here| - 1);
  }

  /** When exactly one face-up card, at `j`, may lie on `there`'s top, the
      block from `j` up moves across in order. */
  lemma KlondikeMoveOneFit(here: Deck, there: Deck, j: int)
    requires |here| + |there| <= Capacity
    requires RunStart(here) <= j < |here| && Successor(here[j], TopCard(there))
    requires forall k :: RunStart(here) <= k < j ==> !Successor(here[k], TopCard(there))
    requires forall k :: j < k < |here| ==> !Successor(here[k], TopCard(there))
    ensures KlondikeMove(here, there) == (here[..j], there + here[j..])
  {
    var c, i, n := TopCard(there), |here| - 1, |here|;
    KlondikeMoveByCut(here, there);
    assert RunBelow(here, i + 1) == RunStart(here);
    CutNoneIff(here, c, i, n);
    CutPlace(here, c, i, n);
    assert Cut(here, c, i, n) == j;
    GatherInOrder(here, there, c, i, n);
    assert here[j..n] == here[j..];
  }

  /** When no face-up card may lie on `there`'s top, nothing moves. */
  lemma KlondikeMoveNoFit(here: Deck, there: Deck)
    requires |here| + |there| <= Capacity
    requires forall k :: RunStart(here) <= k < |here| ==> !Successor(here[k], TopCard(there))
    ensures KlondikeMove(here, there) == (here, there)
  {
    var c, i, n := TopCard(there), |here| - 1, |here|;
    KlondikeMoveByCut(here, there);
    assert RunBelow(here, i + 1) == RunStart(here);
    CutNoneIff(here, c, i, n);
    GatherPrefix(here, there, c, i, n);
    var t := Gather(here, there, c, i, n);
    assert t == t[..|there|];
    assert here[..n] == here;
  }

  /** `moveToTableau`: from the waste, one card when it may lie on the
      destination's top; from any other pile, `klondikeMove` followed by
      turning the source's new top face-up. */
  function MoveToTableau(g: Game, src: PileId, t: int): (r: Game)
    requires WellShaped(g) && ValidId(src) && 0 <= t < 7 && src != Tableau(t)
    ensures WellShaped(r)
    ensures forall o :: ValidId(o) && o != src && o != Tableau(t) ==> Pile(r, o) == Pile(g, o)
    ensures src == Waste && !(|g.drawPile| > 0 && Successor(g.drawPile[|g.drawPile| - 1], TopCard(g.tableau[t]))) ==> r == g
    ensures src == Waste && |g.drawPile| > 0 && Successor(g.drawPile[|g.drawPile| - 1], TopCard(g.tableau[t])) ==>
      r.drawPile == g.drawPile[..|g.drawPile| - 1] && r.tableau[t] == Add(g.tableau[t], g.drawPile[|g.drawPile| - 1])
    ensures src != Waste ==>
      Pile(r, src) == TurnUpTop(KlondikeMove(Pile(g, src), g.tableau[t]).0)
      && r.tableau[t] == KlondikeMove(Pile(g, src), g.tableau[t]).1
  {
    var dest := g.tableau[t];
    if src == Waste then
      match TopCard(g.drawPile)
      case Some(c) =>
        if Successor(c, TopCard(dest)) then
          var (w, d) := MoveTop(g.drawPile, dest);
          WithPile(WithPile(g, Waste, w), Tableau(t), d)
        else g
      case None => g
    else
      var (h, d) := KlondikeMove(Pile(g, src), dest);
      WithPile(WithPile(g, src, TurnUpTop(h)), Tableau(t), d)
  }

  /** A move to the tableau from a face-down stock moves no card, since the
      scan stops at once, yet still turns the stock's top card face-up: the
      one illegal move that changes the game. */
  lemma MoveToTableauFromStock(g: Game, t: int)
    requires WellShaped(g) && 0 <= t < 7 && |g.deck| > 0 && AllFaceDown(g.deck)
    ensures var r := MoveToTableau(g, Stock, t);
      && r.tableau == g.tableau && r.drawPile == g.drawPile && r.foundations == g.foundations
      && r.deck == TurnUpTop(g.deck) && r.deck[|r.deck| - 1].faceUp
      && r != g
  {
    var here := g.deck;
    assert !here[|here| - 1].faceUp;
    assert KlondikeMove(here, g.tableau[t]) == (here, g.tableau[t]);
    var r := MoveToTableau(g, Stock, t);
    assert r.tableau == g.tableau by {
      assert forall u :: 0 <= u < 7 ==> r.tableau[u] == Pile(r, Tableau(u)) == Pile(g, Tableau(u));
    }
    assert g.deck[|g.deck| - 1] != r.deck[|r.deck| - 1];
  }
}

=== FILE: rules.dfy ===
/** The rules keep the game's invariant: drawing, and the foundation and
    tableau moves from the waste or a tableau pile (the sources the game's
    window passes), applied to a game in which the invariant holds, yield a
    game in which it holds, so a game started by the constructor and played
    through those commands never loses, duplicates or misplaces a card.  The
    same moves from the stock break it (`KlondikeModel.MoveToTableauFromStock`,
    `KlondikeModel.MoveToFoundationFromStock`). */
module Rules {
  import opened Cards
  import opened Decks
  import opened KlondikeModel

  /** The invariant's game holds one deck, so any two of its piles fit
      together in one deck. */
  lemma PairFits(g: Game, a: PileId, b: PileId)
    requires Invariant(g) && ValidId(a) && ValidId(b) && a != b
    ensures |Pile(g, a)| + |Pile(g, b)| <= Capacity
  {
    TwoPilesFit(g, a, b);
    KeysSize(StandardDeck());
  }

  // ---------------------------------------------------------------------
  // Ordered tableau piles

  /** Cutting an ordered pile anywhere and turning the new top face-up
      leaves it ordered. */
  lemma OrderedCut(p: Deck, j: nat)
    requires Ordered(p) && j <= |p|
    ensures Ordered(TurnUpTop(p[..j]))
  {
    var r := TurnUpTop(p[..j]);
    if j > 0 {
      assert forall i :: 0 <= i < j - 1 ==> r[i] == r[..j - 1][i] == p[i];
      forall i, k | 0 <= i < k < |r| && r[i].faceUp
        ensures r[k].faceUp
      {
      }
      forall k | 0 <= k < |r| - 1 && r[k].faceUp
        ensures Successor(r[k + 1], Some(r[k]))
      {
        assert FaceOf(r[k + 1]) == FaceOf(p[k + 1]);
      }
    }
  }

  /** Putting on an ordered pile a sequenced face-up run whose lowest card
      may lie on the pile's top keeps the pile ordered. */
  lemma OrderedExtend(p: Deck, b: seq<Card>)
    requires Ordered(p) && |b| > 0 && AllFaceUp(b)
    requires Successor(b[0], TopCard(p))
    requires forall k :: 0 <= k < |b| - 1 ==> Successor(b[k + 1], Some(b[k]))
    ensures Ordered(p + b)
  {
    var q := p + b;
    forall i, j | 0 <= i < j < |q| && q[i].faceUp
      ensures q[j].faceUp
    {
      if j >= |p| {
        assert q[j] == b[j - |p|];
      }
    }
    forall k | 0 <= k < |q| - 1 && q[k].faceUp
      ensures Successor(q[k + 1], Some(q[k]))
    {
      if k >= |p| {
        assert q[k] == b[k - |p|] && q[k + 1] == b[k + 1 - |p|];
      } else if k == |p| - 1 {
        assert q[k + 1] == b[0];
      }
    }
  }

  /** Along the face-up run of an ordered pile the ranks fall by one per card. */
  lemma {:induction false} RunRanks(p: seq<Card>, k: nat)
    requires Ordered(p) && RunStart(p) <= k < |p|
    ensures RankOrdinal(p[k].rank) + k == RankOrdinal(p[RunStart(p)].rank) + RunStart(p)
    decreases k
  {
    if k > RunStart(p) {
      RunRanks(p, k - 1);
      assert p[k - 1].faceUp;
      assert Successor(p[k], Some(p[k - 1]));
    }
  }

  /** The rank a card must have to lie on `c`: one below it, or KING on an
      empty pile. */
  function FitRank(c: Option<Card>): int
  {
    if c.None? then RankOrdinal(King) else RankOrdinal(c.value.rank) - 1
  }

  /** A card that may lie on `c` has rank `FitRank(c)`. */
  lemma FitRankOf(a: Card, c: Option<Card>)
    requires Successor(a, c)
    ensures RankOrdinal(a.rank) == FitRank(c)
  {
  }

  /** In the face-up run of an ordered pile only the card whose rank is
      `FitRank(c)` may lie on `c`, so at most one card of the run fits. */
  lemma RunFitIndex(p: seq<Card>, c: Option<Card>, i: nat)
    requires Ordered(p) && RunStart(p) <= i < |p| && Successor(p[i], c)
    ensures i == RunStart(p) + RankOrdinal(p[RunStart(p)].rank) - FitRank(c)
  {
    FitRankOf(p[i], c);
    RunRanks(p, i);
  }

  /** On an ordered pile `klondikeMove` moves exactly the block from the one
      fitting face-up card up, or nothing when no face-up card fits. */
  lemma KlondikeMoveOrdered(here: Deck, there: Deck)
    requires Ordered(here) && |here| + |there| <= Capacity
    ensures var (h, t) := KlondikeMove(here, there);
      && RunStart(here) <= |h| <= |here| && h == here[..|h|]
      && t == there + here[|h|..]
      && Keys(h) + Keys(t) == Keys(here) + Keys(there)
      && (|h| < |here| <==> exists k :: RunStart(here) <= k < |here| && Successor(here[k], TopCard(there)))
      && (|h| < |here| ==> Successor(here[|h|], TopCard(there)))
  {
    KlondikeMoveEffect(here, there);
    var (h, t) := KlondikeMove(here, there);
    var c := TopCard(there);
    forall k | RunStart(here) <= k < |here| && k != |h|
      ensures !Successor(here[k], c)
    {
      if |h| < |here| && Successor(here[k], c) {
        RunFitIndex(here, c, k);
        RunFitIndex(here, c, |h|);
      }
    }
    if |h| == |here| {
      assert h == here[..|here|] == here;
    }
  }

  // ---------------------------------------------------------------------
  // Preservation

  /** Drawing keeps the invariant. */
  lemma DrawNextKeepsInvariant(g: Game)
    requires Invariant(g)
    ensures Invariant(DrawNext(g))
  {
    if |g.deck| > 0 {
      PairFits(g, Stock, Waste);
      DrawnGame(g);
      DrawFromStockKeepsInvariant(g);
    } else {
      RecycledGame(g);
      RecycleKeepsInvariant(g);
    }
  }

  /** A draw from a stock with room in the waste, as a two-pile rewrite. */
  lemma DrawnGame(g: Game)
    requires WellShaped(g) && |g.deck| > 0 && |g.drawPile| < Capacity
    ensures var n := |g.deck| - 1;
      DrawNext(g) == WithPile(WithPile(g, Stock, g.deck[..n]), Waste, g.drawPile + [TurnUp(g.deck[n])])
  {
  }

  /** A recycle, as a two-pile rewrite. */
  lemma RecycledGame(g: Game)
    requires WellShaped(g) && g.deck == []
    ensures DrawNext(g) == WithPile(WithPile(g, Stock, ReversedDown(g.drawPile)), Waste, [])
  {
  }

  lemma DrawFromStockKeepsInvariant(g: Game)
    requires Invariant(g) && |g.deck| > 0 && |g.drawPile| < Capacity
    ensures var n := |g.deck| - 1;
      Invariant(WithPile(WithPile(g, Stock, g.deck[..n]), Waste, g.drawPile + [TurnUp(g.deck[n])]))
  {
    var n := |g.deck| - 1;
    var w: Deck := g.drawPile + [TurnUp(g.deck[n])];
    KeysSplit(g.deck, n);
    assert g.deck[n..] == [g.deck[n]];
    KeysAppend(g.drawPile, [TurnUp(g.deck[n])]);
    assert Keys([TurnUp(g.deck[n])]) == Keys([g.deck[n]]);
    assert AllFaceUp(w);
    TransferKeepsInvariant(g, Stock, Waste, g.deck[..n], w);
  }

  lemma RecycleKeepsInvariant(g: Game)
    requires Invariant(g) && g.deck == []
    ensures Invariant(WithPile(WithPile(g, Stock, ReversedDown(g.drawPile)), Waste, []))
  {
    var s: Deck := ReversedDown(g.drawPile);
    ReversedDownKeys(g.drawPile);
    TransferKeepsInvariant(g, Stock, Waste, s, []);
  }

  /** The top card of a waste or tableau pile of the invariant's game is face-up. */
  lemma SourceTopUp(g: Game, src: PileId)
    requires Invariant(g) && ValidId(src) && (src == Waste || src.Tableau?)
    requires |Pile(g, src)| > 0
    ensures Pile(g, src)[|Pile(g, src)| - 1].faceUp
  {
    if src.Tableau? {
      assert Ordered(g.tableau[src.i]);
    }
  }

  /** A built foundation `k` accepts a card exactly when the foundation is
      not full and the card is the next rank of the foundation's suit. */
  lemma AcceptedIsNext(f: seq<Card>, c: Card, k: int)
    requires 0 <= k < 4 && Built(f, Suits[k])
    ensures FoundationAccepts(Some(c), f, k) <==>
      |f| < |Ranks| && FaceOf(c) == (Ranks[|f|], Suits[k])
  {
    OrdinalsInvert();
    if |f| > 0 {
      assert f[|f| - 1].rank == Ranks[|f| - 1];
    }
  }

  /** What the invariant asks of the single pile `id`. */
  predicate PileOk(id: PileId, d: seq<Card>)
  {
    match id
    case Stock => AllFaceDown(d)
    case Waste => AllFaceUp(d)
    case Foundation(k) => 0 <= k < 4 && Built(d, Suits[k])
    case Tableau(_) => Ordered(d)
  }

  /** The invariant, pile by pile. */
  lemma PileOkOf(g: Game, id: PileId)
    requires Invariant(g) && ValidId(id)
    ensures PileOk(id, Pile(g, id))
  {
  }

  lemma InvariantByPile(g: Game)
    requires WellShaped(g)
    ensures Invariant(g) <==>
      Total(g) == FullDeck() && forall id :: ValidId(id) ==> PileOk(id, Pile(g, id))
  {
    if Invariant(g) {
      forall id | ValidId(id)
        ensures PileOk(id, Pile(g, id))
      {
      }
    }
    if Total(g) == FullDeck() && forall id :: ValidId(id) ==> PileOk(id, Pile(g, id)) {
      assert PileOk(Stock, Pile(g, Stock)) && PileOk(Waste, Pile(g, Waste));
      forall k | 0 <= k < 4
        ensures Built(g.foundations[k], Suits[k])
      {
        assert PileOk(Foundation(k), Pile(g, Foundation(k)));
      }
      forall t | 0 <= t < 7
        ensures Ordered(g.tableau[t])
      {
        assert PileOk(Tableau(t), Pile(g, Tableau(t)));
      }
    }
  }

  /** Replacing two different piles by piles that keep their faces between
      them and each satisfy the invariant's demand keeps the invariant. */
  lemma TransferKeepsInvariant(g: Game, a: PileId, b: PileId, da: Deck, db: Deck)
    requires Invariant(g) && ValidId(a) && ValidId(b) && a != b
    requires Keys(da) + Keys(db) == Keys(Pile(g, a)) + Keys(Pile(g, b))
    requires PileOk(a, da) && PileOk(b, db)
    ensures Invariant(WithPile(WithPile(g, a, da), b, db))
  {
    var r := WithPile(WithPile(g, a, da), b, db);
    TransferKeepsTotal(g, a, b, da, db);
    InvariantByPile(g);
    forall id | ValidId(id)
      ensures PileOk(id, Pile(r, id))
    {
      if id != a && id != b {
        assert Pile(r, id) == Pile(g, id);
      }
    }
    InvariantByPile(r);
  }

  /** A legal foundation move, for piles that fit together in one deck,
      replaces exactly the source and the foundation. */
  lemma FoundationMoveShape(g: Game, src: PileId, k: int)
    requires WellShaped(g) && ValidId(src) && 0 <= k < 4
    requires FoundationAccepts(TopCard(Pile(g, src)), g.foundations[k], k)
    requires |Pile(g, src)| + |g.foundations[k]| <= Capacity
    ensures var s := Pile(g, src);
      var s1 := TurnUpTop(s[..|s| - 1]);
      var f1 := g.foundations[k] + [s[|s| - 1]];
      && MoveToFoundation(g, src, k) == WithPile(WithPile(g, src, s1), Foundation(k), f1)
      && Keys(s1) + Keys(f1) == Keys(s) + Keys(g.foundations[k])
  {
    var s := Pile(g, src);
    MoveBlockOne(s, g.foundations[k]);
    MoveBlockConserves(s, g.foundations[k], 1);
  }

  /** The two piles a legal foundation move leaves behind satisfy the
      invariant's demand. */
  lemma FoundationMovePilesOk(s: Deck, f: seq<Card>, src: PileId, k: int)
    requires (src == Waste || src.Tableau?) && PileOk(src, s)
    requires 0 <= k < 4 && Built(f, Suits[k])
    requires FoundationAccepts(TopCard(s), f, k)
    ensures PileOk(src, TurnUpTop(s[..|s| - 1]))
    ensures PileOk(Foundation(k), f + [s[|s| - 1]])
  {
    var top := s[|s| - 1];
    assert top.faceUp;
    BuiltExtend(f, top, k);
    SourceCutOk(s, src);
  }

  /** A built foundation that accepts a face-up card is still built after
      taking it. */
  lemma BuiltExtend(f: seq<Card>, c: Card, k: int)
    requires 0 <= k < 4 && Built(f, Suits[k]) && c.faceUp
    requires FoundationAccepts(Some(c), f, k)
    ensures Built(f + [c], Suits[k])
  {
    AcceptedIsNext(f, c, k);
  }

  /** Taking the top card off the waste or a tableau pile and turning the
      new top face-up leaves a pile the invariant accepts. */
  lemma SourceCutOk(s: Deck, src: PileId)
    requires (src == Waste || src.Tableau?) && PileOk(src, s) && |s| > 0
    ensures PileOk(src, TurnUpTop(s[..|s| - 1]))
  {
    if src.Tableau? {
      OrderedCut(s, |s| - 1);
    }
  }

  /** Moving to a foundation, from the waste or a tableau pile, keeps the
      invariant. */
  lemma MoveToFoundationKeepsInvariant(g: Game, src: PileId, k: int)
    requires Invariant(g) && ValidId(src) && (src == Waste || src.Tableau?)
    ensures Invariant(MoveToFoundation(g, src, k))
  {
    if 0 <= k < 4 && FoundationAccepts(TopCard(Pile(g, src)), g.foundations[k], k) {
      PairFits(g, src, Foundation(k));
      FoundationMoveShape(g, src, k);
      FoundationMoveKeepsInvariant(g, src, k);
    }
  }

  lemma FoundationMoveKeepsInvariant(g: Game, src: PileId, k: int)
    requires Invariant(g) && ValidId(src) && (src == Waste || src.Tableau?) && 0 <= k < 4
    requires FoundationAccepts(TopCard(Pile(g, src)), g.foundations[k], k)
    requires |Pile(g, src)| + |g.foundations[k]| <= Capacity
    ensures var s := Pile(g, src);
      Invariant(WithPile(WithPile(g, src, TurnUpTop(s[..|s| - 1])), Foundation(k), g.foundations[k] + [s[|s| - 1]]))
  {
    var s := Pile(g, src);
    var s1: Deck, f1: Deck := TurnUpTop(s[..|s| - 1]), g.foundations[k] + [s[|s| - 1]];
    TopMoveKeys(s, g.foundations[k]);
    assert Keys(s1) == Keys(s[..|s| - 1]);
    FoundationMoveInGameOk(g, src, k);
    TransferKeepsInvariant(g, src, Foundation(k), s1, f1);
  }

  /** Moving the top card of `s` onto `f` keeps the faces the two hold. */
  lemma TopMoveKeys(s: seq<Card>, f: seq<Card>)
    requires |s| > 0
    ensures var n := |s| - 1;
      Keys(s[..n]) + Keys(f + [s[n]]) == Keys(s) + Keys(f)
  {
    var n := |s| - 1;
    KeysSplit(s, n);
    assert s[n..] == [s[n]];
    KeysAppend(f, [s[n]]);
  }

  lemma FoundationMoveInGameOk(g: Game, src: PileId, k: int)
    requires Invariant(g) && ValidId(src) && (src == Waste || src.Tableau?) && 0 <= k < 4
    requires FoundationAccepts(TopCard(Pile(g, src)), g.foundations[k], k)
    ensures var s := Pile(g, src);
      && PileOk(src, TurnUpTop(s[..|s| - 1]))
      && PileOk(Foundation(k), g.foundations[k] + [s[|s| - 1]])
  {
    PileOkOf(g, src);
    PileOkOf(g, Foundation(k));
    FoundationMovePilesOk(Pile(g, src), g.foundations[k], src, k);
  }

  /** In the invariant's game a foundation move from the waste or a tableau
      pile takes one card exactly when it is legal. */
  lemma MoveToFoundationMovesOne(g: Game, src: PileId, k: int)
    requires Invariant(g) && ValidId(src) && (src == Waste || src.Tableau?) && 0 <= k < 4
    ensures var r := MoveToFoundation(g, src, k);
      && (FoundationAccepts(TopCard(Pile(g, src)), g.foundations[k], k) <==>
            |r.foundations[k]| == |g.foundations[k]| + 1)
      && (FoundationAccepts(TopCard(Pile(g, src)), g.foundations[k], k) <==>
            |Pile(r, src)| == |Pile(g, src)| - 1)
  {
    if FoundationAccepts(TopCard(Pile(g, src)), g.foundations[k], k) {
      PairFits(g, src, Foundation(k));
    }
  }

  /** Moving to tableau pile `t`, from the waste or another tableau pile,
      keeps the invariant. */
  lemma MoveToTableauKeepsInvariant(g: Game, src: PileId, t: int)
    requires Invariant(g) && ValidId(src) && (src == Waste || src.Tableau?)
    requires 0 <= t < 7 && src != Tableau(t)
    ensures Invariant(MoveToTableau(g, src, t))
  {
    if src == Waste {
      MoveFromWasteKeepsInvariant(g, t);
    } else {
      MoveFromTableauKeepsInvariant(g, src.i, t);
    }
  }

  /** The waste-to-tableau half of `MoveToTableauKeepsInvariant`. */
  lemma MoveFromWasteKeepsInvariant(g: Game, t: int)
    requires Invariant(g) && 0 <= t < 7
    ensures Invariant(MoveToTableau(g, Waste, t))
  {
    var s, dest := g.drawPile, g.tableau[t];
    if |s| > 0 && Successor(s[|s| - 1], TopCard(dest)) {
      PairFits(g, Waste, Tableau(t));
      WasteMoveShape(g, t);
      WasteMoveKeepsInvariant(g, t);
    }
  }

  /** A legal move from the waste, as a two-pile rewrite. */
  lemma WasteMoveShape(g: Game, t: int)
    requires WellShaped(g) && 0 <= t < 7
    requires var s := g.drawPile;
      |s| > 0 && Successor(s[|s| - 1], TopCard(g.tableau[t])) && |s| + |g.tableau[t]| <= Capacity
    ensures var s, n := g.drawPile, |g.drawPile| - 1;
      MoveToTableau(g, Waste, t) == WithPile(WithPile(g, Waste, s[..n]), Tableau(t), g.tableau[t] + [s[n]])
  {
  }

  lemma WasteMoveKeepsInvariant(g: Game, t: int)
    requires Invariant(g) && 0 <= t < 7
    requires var s := g.drawPile;
      |s| > 0 && Successor(s[|s| - 1], TopCard(g.tableau[t])) && |s| + |g.tableau[t]| <= Capacity
    ensures var s, n := g.drawPile, |g.drawPile| - 1;
      Invariant(WithPile(WithPile(g, Waste, s[..n]), Tableau(t), g.tableau[t] + [s[n]]))
  {
    var s, n, dest := g.drawPile, |g.drawPile| - 1, g.tableau[t];
    var d: Deck := dest + [s[n]];
    KeysSplit(s, n);
    assert s[n..] == [s[n]];
    KeysAppend(dest, [s[n]]);
    assert Ordered(dest);
    OrderedExtend(dest, [s[n]]);
    TransferKeepsInvariant(g, Waste, Tableau(t), s[..n], d);
  }

  /** A move between two tableau piles replaces exactly those two piles. */
  lemma TableauMoveShape(g: Game, i: int, t: int)
    requires WellShaped(g) && 0 <= i < 7 && 0 <= t < 7 && i != t
    ensures var m := KlondikeMove(g.tableau[i], g.tableau[t]);
      MoveToTableau(g, Tableau(i), t) == WithPile(WithPile(g, Tableau(i), TurnUpTop(m.0)), Tableau(t), m.1)
  {
  }

  /** The two piles a move between ordered tableau piles leaves behind are
      ordered and hold the same faces as before. */
  lemma TableauMovePilesOk(s: Deck, dest: Deck)
    requires Ordered(s) && Ordered(dest) && |s| + |dest| <= Capacity
    ensures var (h, d) := KlondikeMove(s, dest);
      && Ordered(TurnUpTop(h)) && Ordered(d)
      && Keys(TurnUpTop(h)) + Keys(d) == Keys(s) + Keys(dest)
  {
    KlondikeMoveOrdered(s, dest);
    var (h, d) := KlondikeMove(s, dest);
    OrderedCut(s, |h|);
    if |h| < |s| {
      var b := s[|h|..];
      forall k | 0 <= k < |b| - 1
        ensures Successor(b[k + 1], Some(b[k]))
      {
        assert b[k] == s[|h| + k] && b[k + 1] == s[|h| + k + 1];
      }
      OrderedExtend(dest, b);
    } else {
      assert d == dest;
    }
  }

  /** The tableau-to-tableau half of `MoveToTableauKeepsInvariant`. */
  lemma MoveFromTableauKeepsInvariant(g: Game, i: int, t: int)
    requires Invariant(g) && 0 <= i < 7 && 0 <= t < 7 && i != t
    ensures Invariant(MoveToTableau(g, Tableau(i), t))
  {
    PairFits(g, Tableau(i), Tableau(t));
    TableauMoveShape(g, i, t);
    TableauMoveKeepsInvariant(g, i, t);
  }

  lemma TableauMoveKeepsInvariant(g: Game, i: int, t: int)
    requires Invariant(g) && 0 <= i < 7 && 0 <= t < 7 && i != t
    requires |g.tableau[i]| + |g.tableau[t]| <= Capacity
    ensures var m := KlondikeMove(g.tableau[i], g.tableau[t]);
      Invariant(WithPile(WithPile(g, Tableau(i), TurnUpTop(m.0)), Tableau(t), m.1))
  {
    var s, dest := g.tableau[i], g.tableau[t];
    assert Ordered(dest) && Ordered(s);
    TableauMovePilesOk(s, dest);
    var m := KlondikeMove(s, dest);
    TransferKeepsInvariant(g, Tableau(i), Tableau(t), TurnUpTop(m.0), m.1);
  }
}

=== FILE: scenarios.dfy ===
/** Worked examples of the rules: the `successor` cases, the documented
    `klondikeMove` example and the move sequences the repository's tester
    walks through, each stated for every game that has the piles the example
    sets up. */
module Scenarios {
  import opened Cards
  import opened Decks
  import opened KlondikeModel

  /** A new card, face-up. */
  function Up(r: Rank, s: Suit): (c: Card)
    ensures c.faceUp && FaceOf(c) == (r, s)
  {
    NewCard(r, s)
  }

  /** A new card turned over once, face-down. */
  function Down(r: Rank, s: Suit): (c: Card)
    ensures !c.faceUp && FaceOf(c) == (r, s)
  {
    Flip(NewCard(r, s))
  }

  /** A QUEEN of CLUBS may lie on a KING of HEARTS but not the other way round,
      and only the KING may go to an empty pile. */
  lemma SuccessorExamples()
    ensures Successor(Up(Queen, Clubs), Some(Up(King, Hearts)))
    ensures !Successor(Up(King, Hearts), Some(Up(Queen, Clubs)))
    ensures !Successor(Up(Queen, Clubs), None)
    ensures Successor(Up(King, Hearts), None)
  {
  }

  /** A card may lie on another only one rank lower and of the other colour,
      so it never lies on a card of its own colour, and an ACE accepts nothing;
      only a KING lies on an empty pile. In terms of the enumeration tables:
      `b` is the rank after `a`'s and the suit ordinals fall in different
      halves. */
  lemma SuccessorNeeds(a: Card, b: Card)
    ensures Successor(a, Some(b)) <==>
      RankOrdinal(b.rank) == RankOrdinal(a.rank) + 1 && IsRed(a) != IsRed(b)
    ensures b.rank == Ace || IsRed(a) == IsRed(b) ==> !Successor(a, Some(b))
    ensures Successor(a, None) <==> a.rank == King
    ensures Successor(a, Some(b)) <==>
      && a.rank != King
      && Ranks[RankOrdinal(a.rank) + 1] == b.rank
      && SuitOrdinal(a.suit) / 2 != SuitOrdinal(b.suit) / 2
  {
    OrdinalsInvert();
  }

  /** A pile of face-down cards under face-up ones has its face-up run
      starting exactly at the first face-up card. */
  lemma RunStartAbove(down: seq<Card>, up: seq<Card>)
    requires AllFaceDown(down) && AllFaceUp(up)
    ensures RunStart(down + up) == |down|
  {
    RunBelowAbove(down, up, |down| + |up|);
  }

  lemma {:induction false} RunBelowAbove(down: seq<Card>, up: seq<Card>, i: nat)
    requires AllFaceDown(down) && AllFaceUp(up) && |down| <= i <= |down| + |up|
    ensures RunBelow(down + up, i) == |down|
    decreases i
  {
    var p := down + up;
    if i > |down| {
      assert p[i - 1] == up[i - 1 - |down|];
      RunBelowAbove(down, up, i - 1);
    } else if i > 0 {
      assert p[i - 1] == down[i - 1];
    }
  }

  /** The example of the `klondikeMove` documentation: with `a` = ## 8d 7s
      6d 5s 4d 3c and `b` = ## ## 6h, the FIVE of SPADES and everything on it
      move across, leaving ## 8d 7s 6d and giving ## ## 6h 5s 4d 3c. */
  lemma DocumentedKlondikeMove(h1: Card, h2: Card, h3: Card)
    requires !h1.faceUp && !h2.faceUp && !h3.faceUp
    ensures var a := [h1, Up(Eight, Diamonds), Up(Seven, Spades), Up(Six, Diamonds),
                      Up(Five, Spades), Up(Four, Diamonds), Up(Three, Clubs)];
      var b := [h2, h3, Up(Six, Hearts)];
      KlondikeMove(a, b) ==
        ([h1, Up(Eight, Diamonds), Up(Seven, Spades), Up(Six, Diamonds)],
         [h2, h3, Up(Six, Hearts), Up(Five, Spades), Up(Four, Diamonds), Up(Three, Clubs)])
  {
    var up := [Up(Eight, Diamonds), Up(Seven, Spades), Up(Six, Diamonds),
               Up(Five, Spades), Up(Four, Diamonds), Up(Three, Clubs)];
    var a := [h1] + up;
    assert a == [h1, Up(Eight, Diamonds), Up(Seven, Spades), Up(Six, Diamonds),
                 Up(Five, Spades), Up(Four, Diamonds), Up(Three, Clubs)];
    var b := [h2, h3, Up(Six, Hearts)];
    var c := TopCard(b);
    assert c == Some(Up(Six, Hearts));
    RunStartAbove([h1], up);
    forall k | 1 <= k < |a| && k != 4
      ensures !Successor(a[k], c)
    {
      assert a[k] == up[k - 1];
    }
    assert a[4] == Up(Five, Spades);
    KlondikeMoveOneFit(a, b, 4);
    assert a[..4] == [h1, Up(Eight, Diamonds), Up(Seven, Spades), Up(Six, Diamonds)];
    assert b + a[4..] == [h2, h3, Up(Six, Hearts), Up(Five, Spades), Up(Four, Diamonds), Up(Three, Clubs)];
  }

  /** The source pile of the tester's `klondikeMove` case: TEN of SPADES and
      JACK of HEARTS face-down under SIX of HEARTS, FIVE of SPADES, FOUR of
      DIAMONDS and THREE of CLUBS. */
  function TesterSource(): (p: Deck)
    ensures RunStart(p) == 2
  {
    var down := [Down(Ten, Spades), Down(Jack, Hearts)];
    var up := [Up(Six, Hearts), Up(Five, Spades), Up(Four, Diamonds), Up(Three, Clubs)];
    RunStartAbove(down, up);
    down + up
  }

  /** Its destination pile: KING of HEARTS face-down under EIGHT of
      DIAMONDS, SEVEN of SPADES and SIX of DIAMONDS. */
  function TesterDestination(): (p: Deck)
    ensures RunStart(p) == 1
  {
    var down := [Down(King, Hearts)];
    var up := [Up(Eight, Diamonds), Up(Seven, Spades), Up(Six, Diamonds)];
    RunStartAbove(down, up);
    down + up
  }

  /** The tester's `klondikeMove` case, backwards: no card of the
      destination may lie on the source's THREE of CLUBS, so nothing moves. */
  lemma TesterKlondikeMoveBack()
    ensures KlondikeMove(TesterDestination(), TesterSource()) == (TesterDestination(), TesterSource())
  {
    var here, there := TesterDestination(), TesterSource();
    assert TopCard(there) == Some(Up(Three, Clubs));
    forall k | 1 <= k < |here|
      ensures !Successor(here[k], TopCard(there))
    {
    }
    KlondikeMoveNoFit(here, there);
  }

  /** The tester's `klondikeMove` case, forwards: the FIVE of SPADES with the
      two cards on it moves onto the SIX of DIAMONDS, leaving three cards, and
      the destination then shows ranks THREE, FOUR, ... EIGHT from the top down. */
  lemma TesterKlondikeMove()
    ensures var (h, t) := KlondikeMove(TesterSource(), TesterDestination());
      |h| == 3 && |t| == 7 && forall k :: 1 <= k < 7 ==> RankOrdinal(t[k].rank) == 8 - k
  {
    var here, there := TesterSource(), TesterDestination();
    TesterKlondikeMoveCut();
    assert here[3..] == [Up(Five, Spades), Up(Four, Diamonds), Up(Three, Clubs)];
    var t := there + here[3..];
    assert t == [Down(King, Hearts), Up(Eight, Diamonds), Up(Seven, Spades), Up(Six, Diamonds),
                 Up(Five, Spades), Up(Four, Diamonds), Up(Three, Clubs)];
  }

  /** In the tester's case only the FIVE of SPADES fits the SIX of DIAMONDS,
      so the move cuts the source above its third card. */
  lemma TesterKlondikeMoveCut()
    ensures var here, there := TesterSource(), TesterDestination();
      KlondikeMove(here, there) == (here[..3], there + here[3..])
  {
    var here, there := TesterSource(), TesterDestination();
    assert TopCard(there) == Some(Up(Six, Diamonds));
    forall k | 2 <= k < |here| && k != 3
      ensures !Successor(here[k], TopCard(there))
    {
    }
    KlondikeMoveOneFit(here, there, 3);
  }

  /** The tester's empty-pile case: a SEVEN may not move to an empty pile,
      a KING may. */
  lemma KingToEmptyPile()
    ensures KlondikeMove([Up(Seven, Diamonds)], []) == ([Up(Seven, Diamonds)], [])
    ensures KlondikeMove([Down(Seven, Diamonds), Up(King, Hearts)], []) ==
      ([Down(Seven, Diamonds)], [Up(King, Hearts)])
  {
    var seven: Deck := [Up(Seven, Diamonds)];
    RunStartAbove([], seven);
    assert [] + seven == seven;
    KlondikeMoveNoFit(seven, []);
    var p: Deck := [Down(Seven, Diamonds), Up(King, Hearts)];
    RunStartAbove([Down(Seven, Diamonds)], [Up(King, Hearts)]);
    assert [Down(Seven, Diamonds)] + [Up(King, Hearts)] == p;
    KlondikeMoveOneFit(p, [], 1);
    assert p[..1] == [Down(Seven, Diamonds)];
  }

  /** The tester's foundation case on a game with empty foundations whose
      first tableau pile is SEVEN of SPADES (face-down), TWO and ACE of
      HEARTS: the move to the CLUBS foundation does nothing, two moves to the
      HEARTS foundation take the ACE and the TWO and turn the SEVEN up, and
      the SEVEN may not go to the SPADES foundation. */
  lemma TesterMoveToFoundation(g: Game)
    requires WellShaped(g) && g.foundations == [[], [], [], []]
    requires g.tableau[0] == [Down(Seven, Spades), Up(Two, Hearts), Up(Ace, Hearts)]
    ensures var g1 := MoveToFoundation(g, Tableau(0), SuitOrdinal(Clubs));
      var g2 := MoveToFoundation(g1, Tableau(0), SuitOrdinal(Hearts));
      var g3 := MoveToFoundation(g2, Tableau(0), SuitOrdinal(Hearts));
      var g4 := MoveToFoundation(g3, Tableau(0), SuitOrdinal(Spades));
      && g1 == g
      && g4.tableau[0] == [Up(Seven, Spades)]
      && g4.foundations[SuitOrdinal(Hearts)] == [Up(Ace, Hearts), Up(Two, Hearts)]
  {
    var g1 := MoveToFoundation(g, Tableau(0), 0);
    assert g1 == g;
    var g2 := MoveToFoundation(g1, Tableau(0), 2);
    assert g2.tableau[0] == [Down(Seven, Spades), Up(Two, Hearts)];
    assert g2.foundations == [[], [], [Up(Ace, Hearts)], []];
    var g3 := MoveToFoundation(g2, Tableau(0), 2);
    assert g3.tableau[0] == TurnUpTop([Down(Seven, Spades)]);
    assert g3.foundations[2] == [Up(Ace, Hearts), Up(Two, Hearts)];
    assert g3.foundations[1] == [];
    var g4 := MoveToFoundation(g3, Tableau(0), 1);
    assert g4 == g3;
  }

  /** The tester's tableau case: pile 6 shows only a SIX of SPADES over
      face-down cards, pile 5 shows QUEEN and FOUR of CLUBS and THREE of
      HEARTS, and the waste shows a FIVE of DIAMONDS.  The FIVE may not go
      on pile 5, goes on pile 6, and then the FOUR and THREE follow it from
      pile 5. */
  lemma TesterMoveToTableau(g: Game, d5: seq<Card>, d6: seq<Card>, w: seq<Card>)
    requires WellShaped(g) && AllFaceDown(d5) && AllFaceDown(d6)
    requires |d5| == 5 && |d6| == 6 && |w| < Capacity
    requires g.tableau[5] == d5 + [Up(Queen, Clubs), Up(Four, Clubs), Up(Three, Hearts)]
    requires g.tableau[6] == d6 + [Up(Six, Spades)]
    requires g.drawPile == w + [Up(Five, Diamonds)]
    ensures var g1 := MoveToTableau(g, Waste, 5);
      var g2 := MoveToTableau(g1, Waste, 6);
      var g3 := MoveToTableau(g2, Tableau(5), 6);
      && g1 == g
      && g2.drawPile == w && g2.tableau[6] == d6 + [Up(Six, Spades), Up(Five, Diamonds)]
      && g3.tableau[5] == d5 + [Up(Queen, Clubs)]
      && g3.tableau[6] == d6 + [Up(Six, Spades), Up(Five, Diamonds), Up(Four, Clubs), Up(Three, Hearts)]
      && |g3.tableau[5]| == 6 && |g3.tableau[6]| == 10
  {
    WasteToTableauScenario(g, d6, w);
    var g2 := MoveToTableau(g, Waste, 6);
    TableauToTableauScenario(g2, d5, d6);
  }

  /** The waste part of the tableau case. */
  lemma WasteToTableauScenario(g: Game, d6: seq<Card>, w: seq<Card>)
    requires WellShaped(g) && |d6| == 6 && |w| < Capacity
    requires TopCard(g.tableau[5]) == Some(Up(Three, Hearts))
    requires g.tableau[6] == d6 + [Up(Six, Spades)]
    requires g.drawPile == w + [Up(Five, Diamonds)]
    ensures MoveToTableau(g, Waste, 5) == g
    ensures var g2 := MoveToTableau(g, Waste, 6);
      && g2.drawPile == w && g2.tableau[6] == d6 + [Up(Six, Spades), Up(Five, Diamonds)]
      && g2.tableau[5] == g.tableau[5]
  {
    assert g.drawPile[|g.drawPile| - 1] == Up(Five, Diamonds);
    assert TopCard(g.tableau[6]) == Some(Up(Six, Spades));
  }

  /** The pile-to-pile part of the tableau case. */
  lemma TableauToTableauScenario(g: Game, d5: seq<Card>, d6: seq<Card>)
    requires WellShaped(g) && AllFaceDown(d5) && |d5| == 5 && |d6| == 6
    requires g.tableau[5] == d5 + [Up(Queen, Clubs), Up(Four, Clubs), Up(Three, Hearts)]
    requires g.tableau[6] == d6 + [Up(Six, Spades), Up(Five, Diamonds)]
    ensures var g3 := MoveToTableau(g, Tableau(5), 6);
      && g3.tableau[5] == d5 + [Up(Queen, Clubs)]
      && g3.tableau[6] == d6 + [Up(Six, Spades), Up(Five, Diamonds), Up(Four, Clubs), Up(Three, Hearts)]
  {
    var t6 := g.tableau[6];
    var up := [Up(Queen, Clubs), Up(Four, Clubs), Up(Three, Hearts)];
    var here := d5 + up;
    RunStartAbove(d5, up);
    forall k | 5 <= k < |here| && k != 6
      ensures !Successor(here[k], TopCard(t6))
    {
      assert here[k] == up[k - 5];
    }
    assert here[6] == Up(Four, Clubs);
    KlondikeMoveOneFit(here, t6, 6);
    assert here[..6] == d5 + [Up(Queen, Clubs)];
    assert here[6..] == [Up(Four, Clubs), Up(Three, Hearts)];
    assert t6 + here[6..] == d6 + [Up(Six, Spades), Up(Five, Diamonds), Up(Four, Clubs), Up(Three, Hearts)];
  }
}
